=== FILE: README.md ===
# social-app chat backend: event routing and decision logic in Dafny

This project models the decision core of the social-app Go chat backend:

- the WebSocket hub that admits connections, routes inbound frames to handlers
  and fans events out to their audience (`backend/ws/ws.go`), and its disabled
  predecessor (`backend/api/communicatorWs.go`);
- the handlers that turn a frame into one store write and at most one event
  (`backend/ws/handlers.go`, `backend/ws/friendsHandlers.go`);
- the friendship endpoint `handleAddFriend` (`backend/api/friend.go`);
- the storage operations as relations of tuples: friends and friend requests,
  chats, chat membership and messages, sessions, profiles
  (`backend/storage/*.go`);
- credential validation and session lookup (`backend/api/auth.go`).

Goroutines become steps that a scheduler may interleave. The hub registry is
a map from connection ids to client records. Each record holds the user, a
chat-id snapshot taken at admission and a bounded outbound queue. The
broadcast channel is a FIFO sequence of encoded events. Database tables are
sets, maps or sequences of rows. A transaction either commits all of its
writes or none of them. Every storage method takes the outcome of its
statements as a parameter (`up`, or a set of failing calls), so that each
error path is stated and proved. JSON is modelled one level up, as parsed
values (`Json.Value`) decoded by Go's struct rules: an absent or `null` field
reads as its zero value, and a field of the wrong type makes decoding fail.
The clock is an integer parameter.

Modules, one per source file or concern: `Wrappers`, `Json`, `Wire` (the
message structs of `backend/types`), `Text` (decimal, hex and UTF-8 helpers),
`FriendsStorage`, `ChatStorage`, `SessionStorage`, `ProfileStorage`, `Auth`,
`FriendApi`, `WsHandlers`, `WsFriendHandlers`, `Hub`, `LegacyHub`.

Quirks of the code are kept as written:

- `IsUserInChat` reports no error for a non-member, so a non-member's message
  is stored and broadcast.
- `handleNewChat` always refuses exactly two members. It lets one member
  through only if a private chat already exists.
- `AcceptFriendRequest` does not need a pending request.
- A nil `err.Error()` is modelled as an abort with no effect: the `Panicked`
  reply, or the `panicked` flag.
- The legacy hub appends the creator last. The current hub puts the creator
  first.

## Model

| member | source | states |
|---|---|---|
| Wire.EncodeOutgoing | backend/types/ws.go:21-26 | decoding an encoded event gives back its type, data, audience kind and ids |
| Wire.EncodeFinal | backend/types/ws.go:28-31 | the final message decodes back to itself, and its base tag is its type |
| Wire.DecodeNewMessage | backend/types/ws.go:33-37 | a frame that decodes as a NewMessage has a base tag equal to the message's type |
| Wire.EncodeNewMessage | backend/types/ws.go:33-37 | a NewMessage decodes back to itself |
| Wire.DecodeNewChat | backend/types/ws.go:66-70 | a frame that decodes as a NewChat has a base tag equal to its type |
| Wire.EncodeNewChat | backend/types/ws.go:66-70 | a NewChat, with its member list, decodes back to itself |
| Wire.EncodeAcceptFR | backend/ws/friendsHandlers.go:11-19 | an accept request (type, sender_id) decodes back to itself |
| Wire.EncodeSentNewMessage | backend/types/types.go:45-49 | the legacy inbound message decodes back to itself and carries its type as base tag |
| Wire.EncodeSentNewChat | backend/types/types.go:56-60 | the legacy inbound new-chat request decodes back to itself and carries its type as base tag |
| Wire.EncodeReceivedNewMessage | backend/types/types.go:67-73 | the legacy outbound message decodes back to itself and carries its type as base tag |
| Wire.EncodeReceivedNewChat | backend/types/types.go:75-81 | the legacy outbound new-chat event decodes back to itself and carries its type as base tag |
| Wire.EncodeCredentials | backend/types/types.go:12-15 | credentials decode back to themselves |
| Text.DecimalRoundTrip | backend/api/friend.go:24-28 | Atoi reads back the decimal text of every integer in int64's range, and refuses the text of any integer outside it (ErrRange, answered "Invalid id") |
| Text.DecimalTextInjective | backend/storage/session.go:29 | different user ids have different decimal texts |
| Text.HexEncode | backend/storage/session.go:29 | hex encoding doubles the length and yields only hex digits |
| Text.HexEncodeInjective | backend/storage/session.go:29 | hex encoding of byte strings is injective |
| Text.Utf8Length | backend/api/auth.go:131-137 | the byte length of a string lies between its character count and four times that |
| SessionStorage.SessionToken | backend/storage/session.go:28-29 | a token is all hex, twice the user id's decimal length plus 64 characters, and ends with the hex of the 32 random bytes |
| SessionStorage.TokenIdentifiesUser | backend/storage/session.go:28-29 | equal tokens come from the same user id and the same random bytes |
| SessionStorage.KilledIdempotent | backend/storage/session.go:66-76 | invalidating the same token twice equals invalidating it once |
| SessionStorage.SessionTable.VerifySession | backend/storage/session.go:41-64 | a failed query or an unknown token gives (false, -1, error); otherwise the row's user id, even when not valid; valid iff the row is valid and not past expires_at; not valid iff an error is reported; an existing row that is not valid always gives "session invalid", which overrides "session expired" |
| SessionStorage.SessionTable.CreateSession | backend/storage/session.go:10-39 | succeeds iff the statement runs and the token is not already stored (UNIQUE); the new row is valid, created now and expires 24 hours later, and verifies as valid for its user; on failure the table is unchanged |
| SessionStorage.SessionTable.KillSession | backend/storage/session.go:66-76 | on success the table is Killed(old, token), an unknown token changing nothing, and the token no longer verifies at any time |
| ProfileStorage.UpdatedRowsFieldwise | backend/storage/profile.go:47-73 | after the update, each row of the user has every non-empty argument in its column and keeps every column whose argument is empty; other rows are unchanged |
| ProfileStorage.UpdateIdempotent | backend/storage/profile.go:47-73 | applying the same update twice equals applying it once |
| ProfileStorage.EmptyUpdateChangesNothing | backend/storage/profile.go:47-73 | an update with four empty arguments changes nothing |
| ProfileStorage.GetProfileByID | backend/storage/profile.go:26-38 | every error comes with the zero profile; a failed query, a missing row and a NULL column are errors; a success reads a row of that user with no NULL column |
| ProfileStorage.FreshProfileUnreadable | backend/storage/profile.go:19-34 | a profile just created by InitProfile cannot be read: its NULL columns make the scan fail |
| ProfileStorage.ProfileTable.InitProfile | backend/storage/profile.go:19-24 | on success one row is appended with name, surname, bio and pfp all NULL; otherwise nothing changes |
| ProfileStorage.ProfileTable.UpdateProfile | backend/storage/profile.go:40-76 | commits iff begin, every issued column update and commit succeed; on commit the rows are UpdatedRows, otherwise unchanged |
| FriendsStorage.MutualFriendLists | backend/storage/friends.go:48-67 | with friendships stored both ways, f is among the friends GetFriends lists for u exactly when u is among those it lists for f |
| FriendsStorage.AcceptKeepsCoherent | backend/storage/friends.go:81-103 | accepting a held request between non-friends keeps friendships symmetric and irreflexive and no request between friends or in both directions |
| FriendsStorage.FriendTables.AreFriends | backend/storage/friends.go:30-37 | error iff the query fails; otherwise true iff (a, b) or (b, a) is a friends row |
| FriendsStorage.FriendTables.IsRequestedFriend | backend/storage/friends.go:39-46 | error iff the query fails; otherwise true iff the request row sender -> receiver exists |
| FriendsStorage.FriendTables.GetFriends | backend/storage/friends.go:48-67 | error iff the query fails; otherwise exactly FriendIds(friends, u) |
| FriendsStorage.FriendTables.SendFR | backend/storage/friends.go:69-73 | succeeds iff the statement runs and the request is not already stored (the table's primary key is the whole row); then exactly that request is added; friends untouched |
| FriendsStorage.FriendTables.RemoveFriend | backend/storage/friends.go:75-79 | on success both directions are deleted and the pair are no longer friends; requests untouched |
| FriendsStorage.FriendTables.AcceptFriendRequest | backend/storage/friends.go:81-103 | commits iff the transaction runs, u != s and neither friends row exists; then both rows are added and the request s -> u is gone; on failure nothing changes |
| FriendsStorage.FriendTables.RejectFriendRequest | backend/storage/friends.go:105-109 | on success only the request s -> u is removed; friends untouched |
| ChatStorage.NewChatSeenByExactlyMembers | backend/storage/communicator.go:121-129 | once a new chat's membership rows are added, GetUserChats lists the chat for a user exactly when the user is one of its members |
| ChatStorage.ChatTables.GetUserChats | backend/storage/communicator.go:46-65 | error iff the query fails; otherwise exactly the chats with a (chat, u) row |
| ChatStorage.ChatTables.IsUserInChat | backend/storage/communicator.go:75-87 | an error iff the query fails, so a non-member passes the check |
| ChatStorage.ChatTables.NewMessage | backend/storage/communicator.go:67-73 | a row id iff the statement runs and the chat exists; then exactly one row with the given chat, sender, content and time is appended; a serial number is used whenever the statement runs |
| ChatStorage.ChatTables.InitNewChat | backend/storage/communicator.go:89-137 | a fresh id iff the transaction runs and no member repeats; then the chat (a group iff more than 2 members, name or NULL) and one membership row per member are added, and GetUserChats lists the chat for exactly its members; otherwise chats and memberships are unchanged |
| Auth.CreateCredentials | backend/api/auth.go:114-140 | accepted iff the form decodes, is not `null`, the address parses and the password is 8 to 50 bytes long; each of the six refusals holds exactly when its check is the first to fail, in the source's order |
| Auth.AuthSession | backend/api/auth.go:141-165 | ok iff the cookie is present and non-empty and its session is valid, unexpired and of a user other than -1; then (user, token), otherwise (-1, "") |
| Auth.AuthenticateWebSocket | backend/ws/ws.go:133-146 | a user iff the header is non-empty and names a valid, unexpired session of a user other than -1; otherwise -1 |
| Auth.HeaderAgreesWithCookie | backend/ws/ws.go:133-146 | the header check admits exactly the tokens authSession admits, as the same user |
| FriendApi.AnswerGuard | backend/api/friend.go:37-100 | accept and reject go through iff the checks succeed, the pair are not friends and a request target -> caller is pending, and they select the matching operation |
| FriendApi.AddGuard | backend/api/friend.go:101-134 | add goes through iff the checks succeed, the pair are not friends and no request is pending either way |
| FriendApi.RemoveGuard | backend/api/friend.go:135-157 | remove goes through iff the check succeeds and the pair are friends; any other action is refused |
| FriendApi.GuardKeepsCoherent | backend/api/friend.go:36-158 | every transition the guards allow keeps the friendship and request tables coherent |
| FriendApi.SecondAddRefused | backend/api/friend.go:115-126 | once an add has stored its request, the same add is refused |
| FriendApi.AddAcceptRemove | backend/api/friend.go:36-158 | a adds b, b accepts, a removes b: each step is allowed, they are friends in between, and they end with no friendship and no request |
| FriendApi.HandleAddFriend | backend/api/friend.go:11-160 | non-POST, unauthenticated, non-numeric id and self-target are refused in that order; then the guards decide; only a Done reply changes the tables, to the guarded operation's result; coherence is preserved |
| WsHandlers.HandleMessage | backend/ws/handlers.go:12-73 | an undecodable frame or empty content changes nothing; an event iff the message is stored; the event has the inbound type, audience chatID [chat], and data with the connection's user as sender, the stored id and the stored time |
| WsHandlers.MembersExist | backend/ws/handlers.go:84-97 | true iff every listed member exists and its existence check did not fail |
| WsHandlers.HandleNewChat | backend/ws/handlers.go:75-153 | refused unless every member exists, there are not exactly two, and a single member already has a private chat; an event iff the chat is created; members and audience are [creator] ++ requested, audience kind userID |
| WsFriendHandlers.HandleAcceptFR | backend/ws/friendsHandlers.go:10-76 | an event iff the frame decodes, the sender is not the caller, the checks succeed, the pair are not friends, the request sender -> caller is pending and the accept commits; then the tables are accepted and the event acceptFR goes to userID [sender, caller]; already-friends without error aborts; no event means no change |
| Hub.OnlyTwoRoutes | backend/ws/ws.go:82-87 | exactly "newMessage" and "newChat" are routed; acceptFR is not |
| Hub.FinalHidesAudience | backend/ws/ws.go:172-181 | the frame a recipient receives is an object with exactly the keys "type" and "data", so two events that differ only in their audience reach recipients as the same frame |
| Hub.IsReceiver | backend/ws/ws.go:184-202 | the two id loops decide exactly the audience rule: chatID matches a client holding any listed chat, userID a listed user, anything else nobody |
| Hub.DispatchedTo | backend/ws/ws.go:184-211 | a partial dispatch only removes the full clients it visited, keeps each client's user and snapshot, and only appends to queues |
| Hub.Dispatch | backend/ws/ws.go:184-212 | visiting the clients in any order yields exactly Dispatched and Dropped, so the outcome does not depend on iteration order |
| Hub.DispatchAudience | backend/ws/ws.go:185-211 | a client outside the audience is untouched; one inside gets the final message at the end of its queue, or leaves the registry when its queue is full |
| Hub.UnknownAudienceReachesNobody | backend/ws/ws.go:185-204 | an event whose verify_type is neither chatID nor userID leaves the registry unchanged |
| Hub.StaleSnapshot | backend/ws/ws.go:49-71 | a chatID event for a chat missing from a client's admission snapshot does not reach it, even if the user has joined since |
| Hub.WebSocketServer.constructor | backend/ws/ws.go:23-36 | an empty registry and queue with the two registered routes |
| Hub.WebSocketServer.ServeWebSocket | backend/ws/ws.go:38-80 | a connection is registered iff authentication, the chat lookup and the upgrade succeed; it gets a fresh id, the session's user, the chats of that moment and an empty queue |
| Hub.WebSocketServer.HandleFrame | backend/ws/ws.go:95-115 | an undecodable or unrouted frame changes nothing; a newMessage or newChat frame yields exactly the event its handler produces (MessageOutcome, NewChatOutcome) with that handler's store writes; the tables the handler does not write stay unchanged, and only that event joins the broadcast queue; the registry never changes |
| Hub.WebSocketServer.ReaderFailed | backend/ws/ws.go:89-100 | a read error removes the connection from the registry, and its writer keeps the items it holds; removing twice is harmless |
| Hub.WebSocketServer.WriterStep | backend/ws/ws.go:118-131 | the oldest held item is written in order, also by the writer of a connection already dropped from the registry; a write error ends the connection |
| Hub.WebSocketServer.Broadcast | backend/ws/ws.go:161-213 | the oldest broadcast is taken; an undecodable one changes nothing; otherwise the registry becomes Dispatched, and the full matched clients are closed with their writers still holding their items |
| LegacyHub.ForwardsByAudience | backend/api/communicatorWs.go:216-255 | the writer forwards a new_message iff its chat is in the snapshot, and a new_chat iff the user is among its members |
| LegacyHub.OfferedTo | backend/api/communicatorWs.go:284-292 | a partial offer removes only the full clients visited, keeps users and snapshots, and only appends to queues |
| LegacyHub.OfferedToAll | backend/api/communicatorWs.go:284-292 | every registered client is offered every item; it keeps the item iff it had room, and is removed otherwise |
| LegacyHub.Offer | backend/api/communicatorWs.go:285-292 | visiting the clients in any order yields exactly OfferedTo and Refused |
| LegacyHub.MembersAreFriends | backend/api/communicatorWs.go:151-164 | true iff every requested member is in the creator's friend set |
| LegacyHub.CommunicatorHub.constructor | backend/api/communicatorWs.go:32-34 | an empty registry and broadcast queue |
| LegacyHub.CommunicatorHub.Serve | backend/api/communicatorWs.go:37-75 | registered iff authentication, the chat lookup and the upgrade succeed, with a fresh id, the user, the chats of that moment and an empty queue |
| LegacyHub.CommunicatorHub.ReadStep | backend/api/communicatorWs.go:83-198 | new_message: an event iff the store accepts it, sent by the connection's user at the stored time; new_chat: an event iff all members are friends of the creator and the chat with the creator appended last is created; new_message leaves the chats and memberships unchanged, new_chat the messages; anything else changes nothing; the registry never changes |
| LegacyHub.CommunicatorHub.ReaderFailed | backend/api/communicatorWs.go:77-89 | a read error removes the connection from the registry, and its writer keeps the items it holds |
| LegacyHub.CommunicatorHub.WriterStep | backend/api/communicatorWs.go:202-263 | the oldest held item is consumed, also by the writer of a connection already dropped from the registry; it is written only if the filter forwards it; a failed write ends the connection |
| LegacyHub.CommunicatorHub.HandleMessages | backend/api/communicatorWs.go:280-294 | the oldest broadcast is offered to every client: the registry becomes OfferedTo, and the full clients are closed with their writers still holding their items |

## Left out

- Goroutines, channels and the mutex: each reader, writer or dispatcher iteration is one sequential step, and interleavings are left to the caller. The mutex in `ServerWebSocket` guards nothing, so it is not modelled.
- Channel capacity: the outbound channels are unbuffered. The model gives each queue a `capacity`. With capacity 1, an empty queue stands for "the writer is waiting" and a held item for the message the writer has taken and is still writing. A connection dropped from the registry moves to `detached` with the items it holds, and its writer still writes them. Writer readiness beyond this is not modelled.
- A reader's teardown does not close the outbound channel, so its writer waits forever. Leaked goroutines are not modelled.
- The WebSocket upgrade, the origin check and the HTTP responses are left out. An upgrade or lookup outcome is a parameter, and a response is reduced to the reply chosen.
- JSON: bytes, case-insensitive key matching, integer width (int64) and `time.Time` formatting are left out. (The int64 range of `strconv.Atoi` is modelled.) Events are parsed values. Re-marshalling a decoded value never fails in the model.
- `time.Now()` is an integer clock parameter; each handler reads it once. The database's `CURRENT_TIMESTAMP` defaults are not modelled.
- SQL details: SERIAL numbering beyond "next id, consumed by every statement that runs", the users table and its foreign keys, `created_at`/`last_active`, and cascades.
- Which duplicate profile row `QueryRow` returns: the model takes the first one.
- `IsUserExisting`, `IsPrivateChatExisting` and `AddFriend` are not part of this model. The first two are parameters (a set of existing users and a boolean answer). `AddFriend` is modelled as `SendFR`, inserting the request caller -> target.
- `NewMessage` is called at `backend/ws/handlers.go:36` with an `(int, error)` result, and at `backend/api/communicatorWs.go:122` with a single message struct. Neither call matches the four-argument, error-only signature at `backend/storage/communicator.go:67`. The model's `NewMessage` takes the four values and returns the stored row's id, or -1; `LegacyHub.CommunicatorHub.ReadStep` calls it with the struct's four fields.
- `gen_random_bytes` and password hashing: the 32 random bytes are a parameter, and hashing is not modelled.
- `mail.ParseAddress` is an uninterpreted predicate parameter.
- The empty handlers `handleRejectFR`, `handleSendFR`, `handleRemoveFriend` and `handleFriendRequest` are not modelled: they do nothing and are not routed.
- login, register and logout in `backend/api/auth.go`, `backend/api/profile.go`, `backend/utils/files.go`, the table-creation DDL (except its key constraints) and the wiring in `api.go` and `main.go`.
- The stale copies `backend/api.go`, `backend/api/comunicatorWs.go` and `backend/storage/comunicator.go`: they duplicate modelled code.
- Hub.WebSocketServer.HandleFrame: does not state the serial counter of the table its handler writes (the next message id after newMessage, the next chat id after newChat). That counter advances whenever the insert statement runs, even when no event follows, as ChatStorage.ChatTables.NewMessage and ChatStorage.ChatTables.InitNewChat state. Every other table, and the other counter, is stated.
- LegacyHub.CommunicatorHub.ReadStep: the same gap for the next message id after new_message and the next chat id after new_chat.

=== FILE: auth.dfy ===
/**
 * The checks of backend/api/auth.go: validating submitted credentials and
 * resolving a request's session cookie to a user; and authenticateWebSocket,
 * which both WebSocket hubs use to resolve the session_token header.
 */
module Auth {
  import opened Wrappers
  import opened Json
  import opened Wire
  import opened Text
  import opened SessionStorage

  const MinPasswordBytes := 8
  const MaxPasswordBytes := 50

  /**
   * Why createCredentials refuses: the form value is not a credentials
   * object; it is JSON `null`, which leaves the credentials pointer nil so the
   * next field access panics; the address does not parse; or the password
   * is empty, too short or too long (in bytes).
   */
  datatype CredentialError = Undecodable | NilCredentials | BadAddress | PasswordEmpty | PasswordTooShort | PasswordTooLong

  datatype CredentialCheck = Accepted(creds: Credentials) | Refused(err: CredentialError)

  /**
   * createCredentials: the checks run in order and the first failure decides.
   * `parses` stands for mail.ParseAddress.
   */
  function CreateCredentials(data: Frame, parses: string -> bool): (r: CredentialCheck)
    ensures r.Accepted? <==> (&& DecodeCredentials(data).Some? && data != Doc(Null)
                              && parses(DecodeCredentials(data).value.email)
                              && MinPasswordBytes <= Utf8Length(DecodeCredentials(data).value.password) <= MaxPasswordBytes)
    ensures r.Accepted? ==> r.creds == DecodeCredentials(data).value
    ensures r == Refused(Undecodable) <==> DecodeCredentials(data).None?
    ensures r == Refused(NilCredentials) <==> data == Doc(Null)
    ensures r == Refused(BadAddress) <==> (&& DecodeCredentials(data).Some? && data != Doc(Null)
                                           && !parses(DecodeCredentials(data).value.email))
    ensures r == Refused(PasswordEmpty) <==> (&& DecodeCredentials(data).Some? && data != Doc(Null)
                                              && parses(DecodeCredentials(data).value.email)
                                              && DecodeCredentials(data).value.password == "")
    ensures r == Refused(PasswordTooShort) <==> (&& DecodeCredentials(data).Some? && data != Doc(Null)
                                                 && parses(DecodeCredentials(data).value.email)
                                                 && DecodeCredentials(data).value.password != ""
                                                 && Utf8Length(DecodeCredentials(data).value.password) < MinPasswordBytes)
    ensures r == Refused(PasswordTooLong) <==> (&& DecodeCredentials(data).Some? && data != Doc(Null)
                                                && parses(DecodeCredentials(data).value.email)
                                                && Utf8Length(DecodeCredentials(data).value.password) > MaxPasswordBytes)
  {
    match DecodeCredentials(data)
    case None => Refused(Undecodable)
    case Some(c) =>
      if data == Doc(Null) then Refused(NilCredentials)
      else if !parses(c.email) then Refused(BadAddress)
      else if c.password == "" then Refused(PasswordEmpty)
      else if Utf8Length(c.password) < MinPasswordBytes then Refused(PasswordTooShort)
      else if Utf8Length(c.password) > MaxPasswordBytes then Refused(PasswordTooLong)
      else Accepted(c)
  }

  /** authSession's (userId, sessionId, err): (-1, "", error) on any failure. */
  datatype SessionAuth = SessionAuth(userId: int, sessionId: string, ok: bool)

  /**
   * authSession with getSession: `cookie` is the session_token cookie, None
   * when the request has none; `up` is whether VerifySession's query runs.
   */
  function AuthSession(cookie: Option<string>, sessions: SessionTable, now: int, up: bool): (r: SessionAuth)
    reads sessions
    ensures !r.ok ==> r.userId == -1 && r.sessionId == ""
    ensures r.ok <==> (&& cookie.Some? && cookie.value != ""
                       && up && cookie.value in sessions.sessions
                       && sessions.sessions[cookie.value].isValid && now <= sessions.sessions[cookie.value].expiresAt
                       && sessions.sessions[cookie.value].userId != -1)
    ensures r.ok ==> r.sessionId == cookie.value && r.userId == sessions.sessions[cookie.value].userId
  {
    if cookie.None? || cookie.value == "" then SessionAuth(-1, "", false)
    else
      var v := sessions.VerifySession(cookie.value, now, up);
      if v.err.Some? || v.userId == -1 || !v.isValid then SessionAuth(-1, "", false)
      else SessionAuth(v.userId, cookie.value, true)
  }

  /**
   * authenticateWebSocket: the session_token header (empty when absent) must
   * name a valid, unexpired session of a user; the result is that user, or
   * -1.
   */
  function AuthenticateWebSocket(token: string, sessions: SessionTable, now: int, up: bool): (userId: int)
    reads sessions
    ensures userId != -1 <==> (&& token != "" && up && token in sessions.sessions
                               && sessions.sessions[token].isValid && now <= sessions.sessions[token].expiresAt
                               && sessions.sessions[token].userId != -1)
    ensures userId != -1 ==> userId == sessions.sessions[token].userId
  {
    if token == "" then -1
    else
      var v := sessions.VerifySession(token, now, up);
      if v.err.Some? || v.userId == -1 || !v.isValid then -1 else v.userId
  }

  /** The header check admits exactly the tokens the cookie check admits, as the same user. */
  lemma HeaderAgreesWithCookie(token: string, sessions: SessionTable, now: int, up: bool)
    ensures var a := AuthSession(Some(token), sessions, now, up);
            && (AuthenticateWebSocket(token, sessions, now, up) != -1 <==> a.ok)
            && (a.ok ==> AuthenticateWebSocket(token, sessions, now, up) == a.userId)
  {
  }
}

=== FILE: chat_storage.dfy ===
/**
 * The `chats`, `chat_users` and `messages` tables
 * (backend/storage/communicator.go). Ids come from SERIAL sequences, which
 * start at 1 and, as in Postgres, are not given back when a transaction
 * rolls back. `up` says whether the database carries out the call.
 */
module ChatStorage {
  import opened Wrappers

  /** A `chats` row; a NULL name is None. */
  datatype ChatRow = ChatRow(isGroup: bool, name: Option<string>)

  /** A `messages` row. */
  datatype MessageRow = MessageRow(id: int, chatId: int, senderId: int, content: string, sentAt: int)

  /** The chat ids GetUserChats(u) collects: the chat_id of every chat_users row whose user_id is u. */
  function UserChatIds(chatUsers: set<(int, int)>, u: int): (ids: set<int>)
    ensures forall c :: c in ids <==> (c, u) in chatUsers
  {
    var ids := set p | p in chatUsers && p.1 == u :: p.0;
    assert forall c :: (c, u) in chatUsers ==> c in ids by {
      forall c | (c, u) in chatUsers ensures c in ids {
        var p := (c, u);
        assert p in chatUsers && p.1 == u;
      }
    }
    ids
  }

  /** The chat_users rows InitNewChat inserts for chat `id`. */
  function MemberRows(id: int, members: seq<int>): (rows: set<(int, int)>)
    ensures forall p :: p in rows <==> p.0 == id && p.1 in members
  {
    var rows := set m | m in members :: (id, m);
    assert forall p: (int, int) :: p.0 == id && p.1 in members ==> p in rows by {
      forall p: (int, int) | p.0 == id && p.1 in members ensures p in rows {
        var m := p.1;
        assert m in members && p == (id, m);
      }
    }
    rows
  }

  predicate Distinct(s: seq<int>) {
    forall i, j :: 0 <= i < j < |s| ==> s[i] != s[j]
  }

  /** The `name` value InitNewChat stores: NULL for the empty name. */
  function StoredName(name: string): (v: Option<string>)
    ensures v.None? <==> name == ""
    ensures v.Some? ==> v.value == name
  {
    if name == "" then None else Some(name)
  }

  /**
   * Once the rows of a new chat are added, the chat is among a user's chats
   * exactly when the user is one of its members.
   */
  lemma NewChatSeenByExactlyMembers(chatUsers: set<(int, int)>, id: int, members: seq<int>, u: int)
    requires forall p | p in chatUsers :: p.0 != id
    ensures id in UserChatIds(chatUsers + MemberRows(id, members), u) <==> u in members
  {
  }

  class ChatTables {
    var chats: map<int, ChatRow>
    var nextChatId: int
    var chatUsers: set<(int, int)>
    var messages: seq<MessageRow>
    var nextMessageId: int

    /** Serial ids are positive and below the sequence; chat_users and messages point at existing chats. */
    ghost predicate Valid()
      reads this
    {
      && 1 <= nextChatId && 1 <= nextMessageId
      && (forall c | c in chats :: 1 <= c < nextChatId)
      && (forall p | p in chatUsers :: p.0 in chats)
      && (forall i | 0 <= i < |messages| :: messages[i].chatId in chats && 1 <= messages[i].id < nextMessageId)
    }

    constructor ()
      ensures Valid() && chats == map[] && chatUsers == {} && messages == []
    {
      chats, nextChatId, chatUsers, messages, nextMessageId := map[], 1, {}, [], 1;
    }

    /** GetUserChats: collects, row by row, the chat_id of every membership row of u. */
    method GetUserChats(u: int, up: bool) returns (r: Option<set<int>>)
      ensures r.None? <==> !up
      ensures r.Some? ==> r.value == UserChatIds(chatUsers, u)
    {
      if !up { return None; }
      var rows := set p | p in chatUsers && p.1 == u;
      var remaining := rows;
      var ids: set<int> := {};
      while remaining != {}
        invariant remaining <= rows
        invariant forall c :: c in ids <==> exists p :: p in rows - remaining && p.0 == c
        decreases remaining
      {
        var p :| p in remaining;
        ids := ids + {p.0};
        remaining := remaining - {p};
      }
      forall c ensures c in ids <==> (c, u) in chatUsers {
        if (c, u) in chatUsers {
          assert (c, u) in rows - remaining;
        }
      }
      r := Some(ids);
    }

    /**
     * IsUserInChat: reports a failure only when the query fails. A user who
     * is not a member gets no error either, because `!exists` returns the
     * (nil) query error.
     */
    method IsUserInChat(u: int, c: int, up: bool) returns (failed: bool)
      ensures failed <==> !up
    {
      if !up { return true; }
      var member := (c, u) in chatUsers;
      if !member {
        return false;
      }
      return false;
    }

    /**
     * NewMessage: appends one message row and returns its id, or -1. The
     * insert fails when the chat does not exist (messages.chat_id references
     * chats); the failed insert still draws an id from the sequence.
     */
    method NewMessage(chatId: int, senderId: int, content: string, sentAt: int, up: bool) returns (id: int)
      requires Valid()
      modifies this
      ensures Valid()
      ensures id != -1 <==> up && chatId in chats
      ensures id != -1 ==> id == old(nextMessageId) && id >= 1
      ensures messages == if id != -1 then old(messages) + [MessageRow(id, chatId, senderId, content, sentAt)] else old(messages)
      ensures nextMessageId == if up then old(nextMessageId) + 1 else old(nextMessageId)
      ensures chats == old(chats) && chatUsers == old(chatUsers) && nextChatId == old(nextChatId)
    {
      if !up { return -1; }
      var serial := nextMessageId;
      nextMessageId := nextMessageId + 1;
      if chatId !in chats {
        return -1;
      }
      messages := messages + [MessageRow(serial, chatId, senderId, content, sentAt)];
      id := serial;
    }

    /**
     * InitNewChat, one transaction: insert the chat (a group iff more than two
     * members, the empty name stored as NULL), then one chat_users row per
     * member. A repeated member violates the (chat_id, user_id) key and the
     * whole creation rolls back with -1.
     */
    method InitNewChat(name: string, members: seq<int>, up: bool) returns (chatId: int)
      requires Valid()
      modifies this
      ensures Valid()
      ensures chatId != -1 <==> up && Distinct(members)
      ensures chatId != -1 ==> && chatId == old(nextChatId) && chatId >= 1 && chatId !in old(chats)
                               && chats == old(chats)[chatId := ChatRow(|members| > 2, StoredName(name))]
                               && chatUsers == old(chatUsers) + MemberRows(chatId, members)
      ensures chatId != -1 ==> forall u :: chatId in UserChatIds(chatUsers, u) <==> u in members
      ensures chatId == -1 ==> chats == old(chats) && chatUsers == old(chatUsers)
      ensures nextChatId == if up then old(nextChatId) + 1 else old(nextChatId)
      ensures messages == old(messages) && nextMessageId == old(nextMessageId)
    {
      if !up { return -1; }
      var isGroup := |members| > 2;
      var id := nextChatId;
      nextChatId := nextChatId + 1;
      var txChats := chats[id := ChatRow(isGroup, StoredName(name))];
      var txUsers := chatUsers;
      var i := 0;
      while i < |members|
        invariant 0 <= i <= |members|
        invariant txUsers == chatUsers + MemberRows(id, members[..i])
        invariant Distinct(members[..i])
      {
        if (id, members[i]) in txUsers {
          // (chat_id, user_id) key violation: roll back
          assert members[i] in members[..i];
          return -1;
        }
        assert members[..i + 1] == members[..i] + [members[i]];
        txUsers := txUsers + {(id, members[i])};
        i := i + 1;
      }
      assert members[..i] == members;
      forall u ensures id in UserChatIds(txUsers, u) <==> u in members {
        NewChatSeenByExactlyMembers(chatUsers, id, members, u);
      }
      chats, chatUsers := txChats, txUsers;
      chatId := id;
    }
  }
}

=== FILE: friend_api.dfy ===
/**
 * handleAddFriend (backend/api/friend.go): the HTTP endpoint
 * /friends/{action}/{id} that drives the friendship state machine. Response
 * writing is reduced to the reply chosen; a nil-error dereference is the
 * Panicked reply, which changes nothing.
 */
module FriendApi {
  import opened Wrappers
  import opened Text
  import opened SessionStorage
  import opened Auth
  import opened FriendsStorage

  datatype Reply =
    | MethodNotAllowed | Unauthorized | InvalidId | CannotAddSelf
    | CheckFailed | AlreadyFriends | NoRequest | AlreadyRequested | NotFriends
    | InvalidAction | Panicked | MutationFailed | Done

  /** The one store mutation a request may end in. */
  datatype Op = AcceptOp | RejectOp | AddOp | RemoveOp

  /** The store calls of one request, named to say which of them the database fails. */
  datatype Call = SessionQuery | FriendsQuery | OutgoingRequestQuery | IncomingRequestQuery | Mutation

  datatype Verdict = Refuse(reply: Reply) | Perform(op: Op)

  /**
   * The guards after authentication and id parsing: no self-targeting, then
   * per action the friendship and request checks, in the source's order.
   * "Outgoing" is the request caller -> target, "incoming" target -> caller.
   */
  function Guard(caller: int, target: int, action: string, friends: set<Pair>, requests: set<Pair>, failing: set<Call>): Verdict
  {
    if target == caller then Refuse(CannotAddSelf)
    else if action == "accept" || action == "reject" then
      if FriendsQuery in failing then Refuse(CheckFailed)
      else if Related(friends, caller, target) then Refuse(AlreadyFriends)
      else if IncomingRequestQuery in failing then Refuse(CheckFailed)
      else if (target, caller) !in requests then Refuse(NoRequest)
      else Perform(if action == "accept" then AcceptOp else RejectOp)
    else if action == "add" then
      if FriendsQuery in failing then Refuse(CheckFailed)
      else if Related(friends, caller, target) then Refuse(AlreadyFriends)
      // the error branch formats the nil `err` of the friendship check
      else if OutgoingRequestQuery in failing || IncomingRequestQuery in failing then Refuse(Panicked)
      else if (caller, target) in requests || (target, caller) in requests then Refuse(AlreadyRequested)
      else Perform(AddOp)
    else if action == "remove" then
      if FriendsQuery in failing then Refuse(CheckFailed)
      else if !Related(friends, caller, target) then Refuse(NotFriends)
      else Perform(RemoveOp)
    else Refuse(InvalidAction)
  }

  /** The tables once the mutation of `op` has succeeded. */
  function Applied(op: Op, caller: int, target: int, friends: set<Pair>, requests: set<Pair>): (set<Pair>, set<Pair>)
  {
    match op
    case AcceptOp => (AcceptedFriends(friends, caller, target), requests - {(target, caller)})
    case RejectOp => (friends, requests - {(target, caller)})
    case AddOp => (friends, requests + {(caller, target)})
    case RemoveOp => (RemovedFriends(friends, caller, target), requests)
  }

  /** Every transition the guards allow keeps the state machine coherent. */
  lemma GuardKeepsCoherent(caller: int, target: int, action: string, friends: set<Pair>, requests: set<Pair>, failing: set<Call>)
    requires Coherent(friends, requests)
    requires Guard(caller, target, action, friends, requests, failing).Perform?
    ensures var (f, r) := Applied(Guard(caller, target, action, friends, requests, failing).op, caller, target, friends, requests);
            Coherent(f, r)
  {
  }

  /** "accept" and "reject" go through exactly when the pair are not friends and the target has a request pending to the caller. */
  lemma AnswerGuard(caller: int, target: int, action: string, friends: set<Pair>, requests: set<Pair>, failing: set<Call>)
    requires action == "accept" || action == "reject"
    ensures Guard(caller, target, action, friends, requests, failing).Perform? <==>
              && caller != target && FriendsQuery !in failing && IncomingRequestQuery !in failing
              && !Related(friends, caller, target) && (target, caller) in requests
    ensures Guard(caller, target, action, friends, requests, failing).Perform? ==>
              Guard(caller, target, action, friends, requests, failing).op == (if action == "accept" then AcceptOp else RejectOp)
  {
  }

  /** "add" goes through exactly when the pair are neither friends nor have a request pending either way. */
  lemma AddGuard(caller: int, target: int, friends: set<Pair>, requests: set<Pair>, failing: set<Call>)
    ensures Guard(caller, target, "add", friends, requests, failing) == Perform(AddOp) <==>
              && caller != target && FriendsQuery !in failing && OutgoingRequestQuery !in failing && IncomingRequestQuery !in failing
              && !Related(friends, caller, target) && (caller, target) !in requests && (target, caller) !in requests
  {
  }

  /** "remove" goes through exactly when the pair are friends; any other action is refused. */
  lemma RemoveGuard(caller: int, target: int, action: string, friends: set<Pair>, requests: set<Pair>, failing: set<Call>)
    ensures Guard(caller, target, "remove", friends, requests, failing) == Perform(RemoveOp) <==>
              caller != target && FriendsQuery !in failing && Related(friends, caller, target)
    ensures action !in {"accept", "reject", "add", "remove"} ==> Guard(caller, target, action, friends, requests, failing).Refuse?
  {
  }

  /** Once an "add" has stored its request, the same "add" again is refused. */
  lemma SecondAddRefused(caller: int, target: int, friends: set<Pair>, requests: set<Pair>, failing: set<Call>, failing': set<Call>)
    requires Guard(caller, target, "add", friends, requests, failing) == Perform(AddOp)
    ensures var (f, r) := Applied(AddOp, caller, target, friends, requests);
            Guard(caller, target, "add", f, r, failing').Refuse?
  {
  }

  /**
   * The lifecycle of a pair: a adds b, b accepts, a removes b. Starting from
   * no relation, the pair ends with no friendship and no pending request.
   */
  lemma AddAcceptRemove(a: int, b: int, friends: set<Pair>, requests: set<Pair>)
    requires Coherent(friends, requests) && a != b
    requires !Related(friends, a, b) && (a, b) !in requests && (b, a) !in requests
    ensures Guard(a, b, "add", friends, requests, {}) == Perform(AddOp)
    ensures var (f1, r1) := Applied(AddOp, a, b, friends, requests);
            && Guard(b, a, "accept", f1, r1, {}) == Perform(AcceptOp)
            && var (f2, r2) := Applied(AcceptOp, b, a, f1, r1);
            && Related(f2, a, b)
            && Guard(a, b, "remove", f2, r2, {}) == Perform(RemoveOp)
            && var (f3, r3) := Applied(RemoveOp, a, b, f2, r2);
            && !Related(f3, a, b) && (a, b) !in r3 && (b, a) !in r3
  {
  }

  /**
   * handleAddFriend: method check, session, id parsing, then the guards and
   * at most one store mutation. Only a Done reply changes the store.
   */
  method HandleAddFriend(httpMethod: string, cookie: Option<string>, idText: string, action: string, now: int,
                         failing: set<Call>, sessions: SessionTable, store: FriendTables)
    returns (reply: Reply)
    requires store.Valid()
    modifies store
    ensures store.Valid()
    ensures reply != Done ==> store.friends == old(store.friends) && store.requests == old(store.requests)
    ensures Coherent(old(store.friends), old(store.requests)) ==> Coherent(store.friends, store.requests)
    ensures httpMethod != "POST" ==> reply == MethodNotAllowed
    ensures httpMethod == "POST" ==>
      var auth := AuthSession(cookie, sessions, now, SessionQuery !in failing);
      var target := ParseDecimal(idText);
      && (!auth.ok ==> reply == Unauthorized)
      && (auth.ok && target.None? ==> reply == InvalidId)
      && (auth.ok && target.Some? ==>
            match Guard(auth.userId, target.value, action, old(store.friends), old(store.requests), failing)
            case Refuse(r) => reply == r
            case Perform(op) =>
              && reply == (if Mutation in failing then MutationFailed else Done)
              && (reply == Done ==>
                    (store.friends, store.requests) == Applied(op, auth.userId, target.value, old(store.friends), old(store.requests))))
  {
    if httpMethod != "POST" { return MethodNotAllowed; }
    var auth := AuthSession(cookie, sessions, now, SessionQuery !in failing);
    if !auth.ok { return Unauthorized; }
    var userId := auth.userId;
    var parsed := ParseDecimal(idText);
    if parsed.None? { return InvalidId; }
    var friendId := parsed.value;
    if friendId == userId { return CannotAddSelf; }

    if action == "accept" || action == "reject" {
      var areFriends := store.AreFriends(userId, friendId, FriendsQuery !in failing);
      if areFriends.None? { return CheckFailed; }
      if areFriends.value { return AlreadyFriends; }
      var isRequested := store.IsRequestedFriend(friendId, userId, IncomingRequestQuery !in failing);
      if isRequested.None? { return CheckFailed; }
      if !isRequested.value { return NoRequest; }
      var ok;
      if action == "accept" {
        ok := store.AcceptFriendRequest(userId, friendId, Mutation !in failing);
      } else {
        ok := store.RejectFriendRequest(userId, friendId, Mutation !in failing);
      }
      reply := if ok then Done else MutationFailed;
    } else if action == "add" {
      var areFriends := store.AreFriends(userId, friendId, FriendsQuery !in failing);
      if areFriends.None? { return CheckFailed; }
      if areFriends.value { return AlreadyFriends; }
      var isRequested1 := store.IsRequestedFriend(userId, friendId, OutgoingRequestQuery !in failing);
      var isRequested2 := store.IsRequestedFriend(friendId, userId, IncomingRequestQuery !in failing);
      if isRequested1.None? || isRequested2.None? { return Panicked; }
      if isRequested1.value || isRequested2.value { return AlreadyRequested; }
      var ok := store.SendFR(userId, friendId, Mutation !in failing);
      reply := if ok then Done else MutationFailed;
    } else if action == "remove" {
      var areFriends := store.AreFriends(userId, friendId, FriendsQuery !in failing);
      if areFriends.None? { return CheckFailed; }
      if !areFriends.value { return NotFriends; }
      var ok := store.RemoveFriend(userId, friendId, Mutation !in failing);
      reply := if ok then Done else MutationFailed;
    } else {
      reply := InvalidAction;
    }
    if reply == Done && Coherent(old(store.friends), old(store.requests)) {
      GuardKeepsCoherent(userId, friendId, action, old(store.friends), old(store.requests), failing);
    }
  }
}

=== FILE: friends_storage.dfy ===
/**
 * The `friends` and `friend_requests` tables (backend/storage/friends.go) as
 * two sets of rows, each keyed by its whole row as the primary key.
 * Every storage method takes `up`: whether the database carries out the
 * statement; when it does not, the call reports an error and, inside a
 * transaction, everything rolls back.
 */
module FriendsStorage {
  import opened Wrappers

  /** A `friends` row (user_id, friend_id) or a `friend_requests` row (sender_id, receiver_id). */
  type Pair = (int, int)

  /** AreFriends' question: is there a friends row in either direction? */
  predicate Related(friends: set<Pair>, a: int, b: int) {
    (a, b) in friends || (b, a) in friends
  }

  /** Every friendship stored in one direction is stored in the other. */
  predicate Symmetric(friends: set<Pair>) {
    forall p | p in friends :: (p.1, p.0) in friends
  }

  /**
   * The friendship state machine per pair {a, b}: no one befriends or requests
   * themselves, friends are stored both ways, and a pair is in at most one of
   * None, Requested(a -> b), Requested(b -> a), Friends.
   */
  predicate Coherent(friends: set<Pair>, requests: set<Pair>) {
    && Symmetric(friends)
    && (forall p | p in friends :: p.0 != p.1)
    && (forall p | p in requests :: p.0 != p.1 && !Related(friends, p.0, p.1) && (p.1, p.0) !in requests)
  }

  /** The friends rows once AcceptFriendRequest(u, s) commits. */
  function AcceptedFriends(friends: set<Pair>, u: int, s: int): set<Pair> {
    friends + {(u, s), (s, u)}
  }

  /**
   * Accepting a request the receiver holds, between users who are not yet
   * friends, keeps the friendship and request tables coherent.
   */
  lemma AcceptKeepsCoherent(friends: set<Pair>, requests: set<Pair>, u: int, s: int)
    requires (s, u) in requests && !Related(friends, u, s)
    ensures Coherent(friends, requests) ==>
              Coherent(AcceptedFriends(friends, u, s), requests - {(s, u)})
  {
  }

  /** The rows once RemoveFriend(u, f) has run: both directions are gone. */
  function RemovedFriends(friends: set<Pair>, u: int, f: int): set<Pair> {
    friends - {(u, f), (f, u)}
  }

  /** The friend ids GetFriends(u) collects: the friend_id of every row whose user_id is u. */
  function FriendIds(friends: set<Pair>, u: int): (ids: set<int>)
    ensures forall f :: f in ids <==> (u, f) in friends
  {
    var ids := set p | p in friends && p.0 == u :: p.1;
    assert forall f :: (u, f) in friends ==> f in ids by {
      forall f | (u, f) in friends ensures f in ids {
        var p := (u, f);
        assert p in friends && p.0 == u;
      }
    }
    ids
  }

  /** With friendships stored both ways, f is among u's friends exactly when u is among f's. */
  lemma MutualFriendLists(friends: set<Pair>, u: int, f: int)
    requires Symmetric(friends)
    ensures f in FriendIds(friends, u) <==> u in FriendIds(friends, f)
  {
  }

  class FriendTables {
    var friends: set<Pair>
    var requests: set<Pair>

    ghost predicate Valid()
      reads this
    {
      Symmetric(friends)
    }

    constructor ()
      ensures Valid() && friends == {} && requests == {}
    {
      friends, requests := {}, {};
    }

    /** AreFriends: true iff a row exists in either direction, so the answer is symmetric. */
    method AreFriends(a: int, b: int, up: bool) returns (r: Option<bool>)
      ensures r.None? <==> !up
      ensures r.Some? ==> (r.value <==> (a, b) in friends || (b, a) in friends)
    {
      if !up { return None; }
      r := Some((a, b) in friends || (b, a) in friends);
    }

    /** IsRequestedFriend: directional, true iff the request row sender -> receiver exists. */
    method IsRequestedFriend(sender: int, receiver: int, up: bool) returns (r: Option<bool>)
      ensures r.None? <==> !up
      ensures r.Some? ==> (r.value <==> (sender, receiver) in requests)
    {
      if !up { return None; }
      r := Some((sender, receiver) in requests);
    }

    /** GetFriends: collects, row by row, the friend_id of every row whose user_id is u. */
    method GetFriends(u: int, up: bool) returns (r: Option<set<int>>)
      ensures r.None? <==> !up
      ensures r.Some? ==> r.value == FriendIds(friends, u)
    {
      if !up { return None; }
      var rows := set p | p in friends && p.0 == u;
      var remaining := rows;
      var ids: set<int> := {};
      while remaining != {}
        invariant remaining <= rows
        invariant forall f :: f in ids <==> exists p :: p in rows - remaining && p.1 == f
        decreases remaining
      {
        var p :| p in remaining;
        ids := ids + {p.1};
        remaining := remaining - {p};
      }
      forall f ensures f in ids <==> f in FriendIds(friends, u) {
        if (u, f) in friends {
          assert (u, f) in rows - remaining;
        }
      }
      r := Some(ids);
    }

    /** SendFR: inserts sender -> receiver; a second identical row violates the primary key and fails. */
    method SendFR(sender: int, receiver: int, up: bool) returns (ok: bool)
      modifies this
      ensures ok <==> up && (sender, receiver) !in old(requests)
      ensures requests == if ok then old(requests) + {(sender, receiver)} else old(requests)
      ensures friends == old(friends)
    {
      ok := up && (sender, receiver) !in requests;
      if ok {
        requests := requests + {(sender, receiver)};
      }
    }

    /** RemoveFriend: deletes the rows in both directions (deleting nothing is not an error). */
    method RemoveFriend(u: int, f: int, up: bool) returns (ok: bool)
      requires Valid()
      modifies this
      ensures Valid()
      ensures ok == up
      ensures friends == if ok then RemovedFriends(old(friends), u, f) else old(friends)
      ensures ok ==> !Related(friends, u, f)
      ensures requests == old(requests)
    {
      ok := up;
      if ok {
        friends := RemovedFriends(friends, u, f);
      }
    }

    /**
     * AcceptFriendRequest(u, s), one transaction: delete the request s -> u
     * (zero rows is fine), then insert (u, s) and (s, u). The insert violates
     * the primary key when either row exists, or when u == s (both rows are
     * the same row); the transaction then rolls back and the request stays.
     */
    method AcceptFriendRequest(u: int, s: int, up: bool) returns (ok: bool)
      requires Valid()
      modifies this
      ensures Valid()
      ensures ok <==> up && u != s && !Related(old(friends), u, s)
      ensures friends == if ok then AcceptedFriends(old(friends), u, s) else old(friends)
      ensures requests == if ok then old(requests) - {(s, u)} else old(requests)
      ensures ok ==> Related(friends, u, s) && (s, u) !in requests
    {
      if !up { return false; }
      ghost var before := (friends, requests);
      var txRequests := requests - {(s, u)};
      if (u, s) in friends || (s, u) in friends || u == s {
        // primary-key violation: roll back, leaving `before` in place
        assert (friends, requests) == before;
        return false;
      }
      friends, requests := AcceptedFriends(friends, u, s), txRequests;
      ok := true;
    }

    /** RejectFriendRequest(u, s): deletes only the request s -> u. */
    method RejectFriendRequest(u: int, s: int, up: bool) returns (ok: bool)
      modifies this
      ensures ok == up
      ensures requests == if ok then old(requests) - {(s, u)} else old(requests)
      ensures friends == old(friends)
    {
      ok := up;
      if ok {
        requests := requests - {(s, u)};
      }
    }
  }
}

=== FILE: hub.dfy ===
/**
 * The WebSocket hub (backend/ws/ws.go): admission, a registry of live
 * connections, the routing of inbound frames to handlers, one broadcast
 * queue, and a dispatcher that fans each event out by its audience rule.
 *
 * The goroutines are modelled as steps a scheduler may interleave: one
 * step of a reader (HandleFrame, ReaderFailed), one step of a writer
 * (WriterStep) and one step of the dispatcher (Broadcast). Each connection's
 * outbound channel is a queue of at most `capacity` items; an item the
 * dispatcher cannot hand over at once makes it close and drop the
 * connection.
 */
module Hub {
  import opened Wrappers
  import opened Json
  import opened Wire
  import opened SessionStorage
  import opened ChatStorage
  import Auth
  import WsHandlers

  /** A connection, named by the order of admission. */
  type ConnId = nat

  /** A registry entry: the user, the chat ids read once at admission, and the items waiting for the writer. */
  datatype Client = Client(userId: int, chatIds: set<int>, queue: seq<Final>)

  datatype Handler = MessageHandler | NewChatHandler

  /** registerHandlers: the routing table from a frame's type tag to its handler. */
  function HandlerTable(): map<string, Handler> {
    map["newMessage" := MessageHandler, "newChat" := NewChatHandler]
  }

  /** Only "newMessage" and "newChat" are routed; the friend-request handlers are not in the table. */
  lemma OnlyTwoRoutes(tag: string)
    ensures tag in HandlerTable() <==> tag == "newMessage" || tag == "newChat"
    ensures "acceptFR" !in HandlerTable()
  {
  }

  /** The audience rule: a chatID event reaches members of any listed chat, a userID event the listed users, any other event nobody. */
  predicate Matches(o: OutgoingBase, c: Client) {
    || (o.verifyType == "chatID" && exists id :: id in o.verifyIds && id in c.chatIds)
    || (o.verifyType == "userID" && c.userId in o.verifyIds)
  }

  /**
   * What a recipient receives keeps nothing of the audience: the frame is an
   * object with exactly the keys "type" and "data", and two events that
   * differ only in their audience reach their recipients as the same frame.
   */
  lemma FinalHidesAudience(o: OutgoingBase, o': OutgoingBase)
    ensures var f := EncodeFinal(Final(o.typ, o.data));
            f.Doc? && f.root.Obj? && f.root.fields.Keys == {"type", "data"}
    ensures o.typ == o'.typ && o.data == o'.data ==> EncodeFinal(Final(o.typ, o.data)) == EncodeFinal(Final(o'.typ, o'.data))
  {
  }

  /** The per-client test of BroadcastMessages, as its two loops over the event's ids. */
  method IsReceiver(o: OutgoingBase, c: Client) returns (receiver: bool)
    ensures receiver <==> Matches(o, c)
  {
    receiver := false;
    if o.verifyType == "chatID" {
      var i := 0;
      ghost var found := 0;
      while i < |o.verifyIds|
        invariant 0 <= i <= |o.verifyIds| && !receiver
        invariant forall j :: 0 <= j < i ==> o.verifyIds[j] !in c.chatIds
      {
        if o.verifyIds[i] in c.chatIds {
          receiver := true;
          found := o.verifyIds[i];
          break;
        }
        i := i + 1;
      }
      if !receiver {
        forall id | id in o.verifyIds ensures id !in c.chatIds {
          var j :| 0 <= j < |o.verifyIds| && o.verifyIds[j] == id;
        }
      }
      if receiver {
        assert found in o.verifyIds && found in c.chatIds;
      }
    }
    if o.verifyType == "userID" {
      var i := 0;
      while i < |o.verifyIds|
        invariant 0 <= i <= |o.verifyIds| && !receiver
        invariant forall j :: 0 <= j < i ==> o.verifyIds[j] != c.userId
      {
        if c.userId == o.verifyIds[i] {
          receiver := true;
          break;
        }
        i := i + 1;
      }
    }
  }

  /** Whether the dispatcher, visiting connection `k`, finds it in the audience with its channel full. */
  predicate Overflows(clients: map<ConnId, Client>, o: OutgoingBase, capacity: nat, k: ConnId)
    requires k in clients
  {
    Matches(o, clients[k]) && |clients[k].queue| >= capacity
  }

  /** The connections the dispatcher closes and drops once it has visited `visited`. */
  function Dropped(clients: map<ConnId, Client>, o: OutgoingBase, capacity: nat, visited: set<ConnId>): (r: set<ConnId>)
    ensures r <= clients.Keys * visited
  {
    set k | k in clients && k in visited && Overflows(clients, o, capacity, k)
  }

  /**
   * The registry once the dispatcher has visited `visited` for event `o`:
   * a visited connection in the audience gets the final message appended, or
   * is dropped when full; every other connection is as it was.
   */
  function DispatchedTo(clients: map<ConnId, Client>, o: OutgoingBase, capacity: nat, visited: set<ConnId>): (r: map<ConnId, Client>)
    ensures r.Keys == clients.Keys - Dropped(clients, o, capacity, visited)
    ensures forall k | k in r :: r[k].userId == clients[k].userId && r[k].chatIds == clients[k].chatIds
    ensures forall k | k in r :: clients[k].queue <= r[k].queue
    ensures forall k | k in r :: r[k].queue == clients[k].queue || |r[k].queue| <= capacity
  {
    map k | k in clients && !(k in visited && Overflows(clients, o, capacity, k)) ::
      if k in visited && Matches(o, clients[k]) then clients[k].(queue := clients[k].queue + [Final(o.typ, o.data)]) else clients[k]
  }

  /** Visiting one more connection changes only its own entry. */
  lemma DispatchStep(clients: map<ConnId, Client>, o: OutgoingBase, capacity: nat, visited: set<ConnId>, k: ConnId)
    requires k in clients && k !in visited
    ensures var before := DispatchedTo(clients, o, capacity, visited);
            var after := DispatchedTo(clients, o, capacity, visited + {k});
            && k in before && before[k] == clients[k]
            && after == (if Overflows(clients, o, capacity, k) then before - {k}
                         else if Matches(o, clients[k]) then before[k := clients[k].(queue := clients[k].queue + [Final(o.typ, o.data)])]
                         else before)
            && Dropped(clients, o, capacity, visited + {k}) ==
               Dropped(clients, o, capacity, visited) + (if Overflows(clients, o, capacity, k) then {k} else {})
  {
  }

  /** One dispatch: every connection is visited. */
  function Dispatched(clients: map<ConnId, Client>, o: OutgoingBase, capacity: nat): map<ConnId, Client> {
    DispatchedTo(clients, o, capacity, clients.Keys)
  }

  /**
   * The client loop of BroadcastMessages for one event: each connection is
   * visited once, in any order; the result is the new registry and the
   * connections closed for being full.
   */
  method Dispatch(clients: map<ConnId, Client>, o: OutgoingBase, capacity: nat)
    returns (registry: map<ConnId, Client>, drops: set<ConnId>)
    ensures registry == Dispatched(clients, o, capacity)
    ensures drops == Dropped(clients, o, capacity, clients.Keys)
  {
    var final := Final(o.typ, o.data);
    registry := clients;
    drops := {};
    var todo := clients.Keys;
    while todo != {}
      invariant todo <= clients.Keys
      invariant registry == DispatchedTo(clients, o, capacity, clients.Keys - todo)
      invariant drops == Dropped(clients, o, capacity, clients.Keys - todo)
      decreases todo
    {
      var k :| k in todo;
      DispatchStep(clients, o, capacity, clients.Keys - todo, k);
      assert clients.Keys - (todo - {k}) == (clients.Keys - todo) + {k};
      todo := todo - {k};
      var c := registry[k];
      var receiver := IsReceiver(o, c);
      if receiver {
        if |c.queue| < capacity {
          registry := registry[k := c.(queue := c.queue + [final])];
        } else {
          drops := drops + {k};
          registry := registry - {k};
        }
      }
    }
    assert clients.Keys - todo == clients.Keys;
  }

  /**
   * The audience of one dispatch, connection by connection: a connection
   * outside the audience is untouched, one inside receives exactly the final
   * message at the end of its queue unless its channel is full, in which
   * case it leaves the registry. No connection is added.
   */
  lemma DispatchAudience(clients: map<ConnId, Client>, o: OutgoingBase, capacity: nat, k: ConnId)
    requires k in clients
    ensures var r := Dispatched(clients, o, capacity);
            && (!Matches(o, clients[k]) ==> k in r && r[k] == clients[k])
            && (Matches(o, clients[k]) && |clients[k].queue| < capacity ==>
                  k in r && r[k].queue == clients[k].queue + [Final(o.typ, o.data)])
            && (Matches(o, clients[k]) && |clients[k].queue| >= capacity ==> k !in r)
  {
  }

  /** An event of any other audience kind reaches nobody and leaves the registry as it is. */
  lemma UnknownAudienceReachesNobody(clients: map<ConnId, Client>, o: OutgoingBase, capacity: nat)
    requires o.verifyType != "chatID" && o.verifyType != "userID"
    ensures Dispatched(clients, o, capacity) == clients
  {
  }

  /**
   * The chat ids are a snapshot taken at admission: for a chat the
   * connection's snapshot does not hold, a chatID event for that chat does
   * not reach it, even when the user has since become a member.
   */
  lemma StaleSnapshot(clients: map<ConnId, Client>, o: OutgoingBase, capacity: nat, k: ConnId, chatId: int)
    requires k in clients && chatId !in clients[k].chatIds
    requires o.verifyType == "chatID" && o.verifyIds == [chatId]
    ensures k in Dispatched(clients, o, capacity) && Dispatched(clients, o, capacity)[k] == clients[k]
  {
  }

  class WebSocketServer {
    /** The registry: connections the dispatcher fans out to. */
    var clients: map<ConnId, Client>
    /** Encoded events waiting for the dispatcher, oldest first. */
    var broadcast: seq<Frame>
    /** Connections whose outbound channel the dispatcher has closed. */
    var closed: set<ConnId>
    /**
     * Connections out of the registry whose writer goroutine still holds
     * items: it keeps writing them (the one in hand, and any left in the
     * channel) after the connection has been deleted from the map.
     */
    var detached: map<ConnId, Client>
    /** The user of every admitted connection, kept after it leaves the registry. */
    var identities: map<ConnId, int>
    var nextConn: ConnId
    const handlers: map<string, Handler>
    const capacity: nat
    const chats: ChatTables
    const sessions: SessionTable

    ghost predicate Valid()
      reads this
    {
      && handlers == HandlerTable()
      && clients.Keys <= identities.Keys
      && (forall k | k in clients :: clients[k].userId == identities[k] && |clients[k].queue| <= capacity)
      && closed <= identities.Keys
      && closed !! clients.Keys
      && detached.Keys <= identities.Keys
      && detached.Keys !! clients.Keys
      && (forall k | k in identities :: k < nextConn)
    }

    /** NewWebSocketServer with registerHandlers: an empty registry and the two routes. */
    constructor (capacity: nat, chats: ChatTables, sessions: SessionTable)
      ensures Valid()
      ensures clients == map[] && broadcast == [] && closed == {} && detached == map[] && identities == map[] && nextConn == 0
      ensures this.capacity == capacity && this.chats == chats && this.sessions == sessions
    {
      this.clients := map[];
      this.broadcast := [];
      this.closed := {};
      this.detached := map[];
      this.identities := map[];
      this.nextConn := 0;
      this.handlers := HandlerTable();
      this.capacity := capacity;
      this.chats := chats;
      this.sessions := sessions;
    }

    /**
     * ServerWebSocket: authenticate, read the user's chat ids once, upgrade,
     * then register a fresh connection with an empty queue.
     */
    method ServeWebSocket(token: string, now: int, verifyUp: bool, chatsUp: bool, upgradeOk: bool) returns (id: Option<ConnId>)
      requires Valid()
      modifies this
      ensures Valid()
      ensures id.Some? <==> Auth.AuthenticateWebSocket(token, sessions, now, verifyUp) != -1 && chatsUp && upgradeOk
      ensures id.Some? ==>
                var userId := Auth.AuthenticateWebSocket(token, sessions, now, verifyUp);
                && id.value == old(nextConn) && id.value !in old(identities)
                && clients == old(clients)[id.value := Client(userId, UserChatIds(chats.chatUsers, userId), [])]
                && identities == old(identities)[id.value := userId]
      ensures id.None? ==> clients == old(clients) && identities == old(identities)
      ensures broadcast == old(broadcast) && closed == old(closed) && detached == old(detached)
    {
      var userId := Auth.AuthenticateWebSocket(token, sessions, now, verifyUp);
      if userId == -1 { return None; }
      var chatIds := chats.GetUserChats(userId, chatsUp);
      if chatIds.None? { return None; }
      if !upgradeOk { return None; }
      var conn := nextConn;
      clients := clients[conn := Client(userId, chatIds.value, [])];
      identities := identities[conn := userId];
      nextConn := nextConn + 1;
      id := Some(conn);
    }

    /**
     * One iteration of handleReads: a frame whose base does not decode, or
     * whose type has no route, is skipped; otherwise its handler runs and any
     * event it produces joins the broadcast queue. Reading never changes the
     * registry.
     */
    method HandleFrame(id: ConnId, frame: Frame, env: WsHandlers.Env) returns (event: Option<OutgoingBase>)
      requires Valid() && chats.Valid() && id in identities
      modifies this, chats
      ensures Valid() && chats.Valid()
      ensures clients == old(clients) && closed == old(closed) && detached == old(detached)
      ensures identities == old(identities) && nextConn == old(nextConn)
      ensures broadcast == old(broadcast) + (if event.Some? then [EncodeOutgoing(event.value)] else [])
      ensures DecodeIncomingBase(frame).None? || DecodeIncomingBase(frame).value.typ !in HandlerTable() ==>
                event.None? && unchanged(chats)
      ensures DecodeIncomingBase(frame).Some? && DecodeIncomingBase(frame).value.typ == "newMessage" ==>
                event == WsHandlers.MessageOutcome(identities[id], frame, env, old(chats.chats), old(chats.nextMessageId))
      ensures DecodeIncomingBase(frame).Some? && DecodeIncomingBase(frame).value.typ == "newChat" ==>
                event == WsHandlers.NewChatOutcome(identities[id], frame, env, old(chats.nextChatId))
      ensures DecodeIncomingBase(frame).Some? && DecodeIncomingBase(frame).value.typ == "newMessage" ==>
                && chats.chats == old(chats.chats) && chats.chatUsers == old(chats.chatUsers) && chats.nextChatId == old(chats.nextChatId)
                && (event.None? ==> chats.messages == old(chats.messages))
      ensures DecodeIncomingBase(frame).Some? && DecodeIncomingBase(frame).value.typ == "newChat" ==>
                && chats.messages == old(chats.messages) && chats.nextMessageId == old(chats.nextMessageId)
                && (event.None? ==> chats.chats == old(chats.chats) && chats.chatUsers == old(chats.chatUsers))
      ensures DecodeIncomingBase(frame).Some? && DecodeIncomingBase(frame).value.typ == "newMessage" && event.Some? ==>
                match DecodeNewMessage(frame)
                case None => false
                case Some(m) =>
                  chats.messages == old(chats.messages) + [MessageRow(old(chats.nextMessageId), m.chatId, identities[id], m.content, env.now)]
      ensures DecodeIncomingBase(frame).Some? && DecodeIncomingBase(frame).value.typ == "newChat" && event.Some? ==>
                match DecodeNewChat(frame)
                case None => false
                case Some(c) =>
                  var withCreator := [identities[id]] + c.members;
                  && chats.chats == old(chats.chats)[old(chats.nextChatId) := ChatRow(|withCreator| > 2, StoredName(c.chatName))]
                  && chats.chatUsers == old(chats.chatUsers) + MemberRows(old(chats.nextChatId), withCreator)
      ensures event.Some? && DecodeIncomingBase(frame).value.typ == "newMessage" ==>
                && event.value.typ == "newMessage" && event.value.verifyType == "chatID"
                && |chats.messages| == |old(chats.messages)| + 1
                && chats.messages[|chats.messages| - 1].senderId == identities[id]
      ensures event.Some? && DecodeIncomingBase(frame).value.typ == "newChat" ==>
                && event.value.typ == "newChat" && event.value.verifyType == "userID"
                && |event.value.verifyIds| > 0 && event.value.verifyIds[0] == identities[id]
                && old(chats.nextChatId) !in old(chats.chats) && old(chats.nextChatId) in chats.chats
    {
      var base := DecodeIncomingBase(frame);
      if base.None? { return None; }
      var tag := base.value.typ;
      if tag !in handlers { return None; }
      var userId := identities[id];
      match handlers[tag] {
        case MessageHandler =>
          event := WsHandlers.HandleMessage(userId, frame, chats, env);
        case NewChatHandler =>
          event := WsHandlers.HandleNewChat(userId, frame, chats, env);
      }
      if event.Some? {
        broadcast := broadcast + [EncodeOutgoing(event.value)];
      }
    }

    /**
     * The teardown of handleReads after a read error: the connection leaves
     * the registry (a second removal changes nothing), and its writer, whose
     * channel is not closed, keeps the items it holds.
     */
    method ReaderFailed(id: ConnId)
      requires Valid()
      modifies this
      ensures Valid()
      ensures clients == old(clients) - {id}
      ensures detached == if id in old(clients) then old(detached)[id := old(clients)[id]] else old(detached)
      ensures broadcast == old(broadcast) && closed == old(closed) && identities == old(identities) && nextConn == old(nextConn)
    {
      if id in clients {
        detached := detached[id := clients[id]];
      }
      clients := clients - {id};
    }

    /**
     * One iteration of handleWrites, for a connection in the registry or one
     * that has left it: the oldest held item is written; on a write error the
     * writer stops and the connection is gone. `written` is the item that
     * reached the socket.
     */
    method WriterStep(id: ConnId, writeOk: bool) returns (written: Option<Final>)
      requires Valid()
      modifies this
      ensures Valid()
      ensures id in old(clients) ==>
                var c := old(clients)[id];
                && detached == old(detached)
                && written == (if c.queue != [] && writeOk then Some(c.queue[0]) else None)
                && clients == if c.queue == [] then old(clients)
                              else if writeOk then old(clients)[id := c.(queue := c.queue[1..])]
                              else old(clients) - {id}
      ensures id in old(detached) ==>
                var c := old(detached)[id];
                && clients == old(clients)
                && written == (if c.queue != [] && writeOk then Some(c.queue[0]) else None)
                && detached == if c.queue == [] then old(detached)
                               else if writeOk then old(detached)[id := c.(queue := c.queue[1..])]
                               else old(detached) - {id}
      ensures id !in old(clients) && id !in old(detached) ==>
                written.None? && clients == old(clients) && detached == old(detached)
      ensures broadcast == old(broadcast) && closed == old(closed) && identities == old(identities) && nextConn == old(nextConn)
    {
      if id in clients {
        var c := clients[id];
        if c.queue == [] { return None; }
        if !writeOk {
          clients := clients - {id};
          return None;
        }
        clients := clients[id := c.(queue := c.queue[1..])];
        written := Some(c.queue[0]);
      } else if id in detached {
        var c := detached[id];
        if c.queue == [] { return None; }
        if !writeOk {
          detached := detached - {id};
          return None;
        }
        detached := detached[id := c.(queue := c.queue[1..])];
        written := Some(c.queue[0]);
      } else {
        written := None;
      }
    }

    /**
     * One iteration of BroadcastMessages: the oldest encoded event is taken
     * off the queue; one that does not decode is dropped; otherwise every
     * registered connection is visited once and the registry becomes
     * Dispatched, the full connections in the audience being closed; their
     * writers keep the items they already hold.
     */
    method Broadcast()
      requires Valid()
      modifies this
      ensures Valid()
      ensures identities == old(identities) && nextConn == old(nextConn)
      ensures old(broadcast) == [] ==>
                broadcast == [] && clients == old(clients) && closed == old(closed) && detached == old(detached)
      ensures old(broadcast) != [] ==>
                && broadcast == old(broadcast)[1..]
                && match DecodeOutgoing(old(broadcast)[0])
                   case None => clients == old(clients) && closed == old(closed) && detached == old(detached)
                   case Some(o) =>
                     var drops := Dropped(old(clients), o, capacity, old(clients).Keys);
                     && clients == Dispatched(old(clients), o, capacity)
                     && closed == old(closed) + drops
                     && detached == old(detached) + map k | k in drops :: old(clients)[k]
    {
      if broadcast == [] { return; }
      var msg := broadcast[0];
      broadcast := broadcast[1..];
      var decoded := DecodeOutgoing(msg);
      if decoded.None? { return; }
      var o := decoded.value;
      var registry, drops := Dispatch(clients, o, capacity);
      closed := closed + drops;
      detached := detached + map k | k in drops :: clients[k];
      clients := registry;
    }
  }
}

=== FILE: json.dfy ===
/**
 * Parsed JSON text and the rules Go's encoding/json applies when it fills a
 * struct from it. Frames on the wire and items on channels are JSON text;
 * the model keeps only whether the text parses and, if it does, its value.
 */
module Json {
  import opened Wrappers

  /** A JSON value. Numbers are integers: no field of the core carries a fraction. */
  datatype Value =
    | Null
    | Bool(b: bool)
    | Num(n: int)
    | Str(s: string)
    | Arr(items: seq<Value>)
    | Obj(fields: map<string, Value>)

  /** The bytes of one frame or channel item: text that is not JSON, or a document. */
  datatype Frame = Malformed | Doc(root: Value)

  /**
   * The members a struct is filled from. A document that is `null` leaves the
   * struct at its zero value, exactly as an empty object does; any document
   * that is not an object is a type error, and so is text that does not parse.
   */
  function StructFields(f: Frame): (r: Option<map<string, Value>>)
    ensures r.Some? <==> f.Doc? && (f.root.Null? || f.root.Obj?)
  {
    match f
    case Doc(Null) => Some(map[])
    case Doc(Obj(fields)) => Some(fields)
    case _ => None
  }

  /** A `string` field: absent or `null` keeps "", a non-string is a type error. */
  function StringField(fields: map<string, Value>, key: string): Option<string>
  {
    if key !in fields then Some("")
    else match fields[key]
      case Null => Some("")
      case Str(s) => Some(s)
      case _ => None
  }

  /** An `int` field: absent or `null` keeps 0, a non-number is a type error. */
  function IntField(fields: map<string, Value>, key: string): Option<int>
  {
    if key !in fields then Some(0)
    else match fields[key]
      case Null => Some(0)
      case Num(n) => Some(n)
      case _ => None
  }

  /** An element of an `[]int`: `null` leaves the element 0. */
  predicate IsIntElement(v: Value) {
    v.Null? || v.Num?
  }

  function IntElement(v: Value): int {
    if v.Num? then v.n else 0
  }

  /** An `[]int` field: absent or `null` gives the empty slice, an array of numbers gives them in order. */
  function IntsField(fields: map<string, Value>, key: string): (r: Option<seq<int>>)
    ensures r.Some? && key in fields && fields[key].Arr? ==> |r.value| == |fields[key].items|
  {
    if key !in fields then Some([])
    else match fields[key]
      case Null => Some([])
      case Arr(items) =>
        if forall i :: 0 <= i < |items| ==> IsIntElement(items[i])
        then Some(seq(|items|, i requires 0 <= i < |items| => IntElement(items[i])))
        else None
      case _ => None
  }

  /** A `json.RawMessage` field: kept verbatim; an absent one marshals as `null`. */
  function RawField(fields: map<string, Value>, key: string): Value
  {
    if key in fields then fields[key] else Null
  }

  /** The JSON array Go writes for an `[]int`. */
  function Ints(xs: seq<int>): (v: Value)
    ensures IntsField(map["k" := v], "k") == Some(xs)
  {
    var v := Arr(seq(|xs|, i requires 0 <= i < |xs| => Num(xs[i])));
    assert forall i :: 0 <= i < |xs| ==> IsIntElement(v.items[i]);
    assert seq(|v.items|, i requires 0 <= i < |v.items| => IntElement(v.items[i])) == xs;
    v
  }

  /** Reading back an `[]int` that was written with `Ints`, under any key. */
  lemma IntsRoundTrip(fields: map<string, Value>, key: string, xs: seq<int>)
    requires key in fields && fields[key] == Ints(xs)
    ensures IntsField(fields, key) == Some(xs)
  {
  }
}

=== FILE: legacy_hub.dfy ===
/**
 * The predecessor hub (backend/api/communicatorWs.go), no longer routed:
 * every broadcast is offered to every registered connection, and each
 * connection's writer decides, by the item's type, whether its user should
 * see it. Steps are modelled as in the current hub.
 */
module LegacyHub {
  import opened Wrappers
  import opened Json
  import opened Wire
  import opened SessionStorage
  import opened ChatStorage
  import opened FriendsStorage
  import Auth

  type ConnId = nat

  /** A registry entry: the user, the chat ids read at admission, and the raw items waiting for the writer. */
  datatype Client = Client(userId: int, chatIds: set<int>, queue: seq<Frame>)

  /** The store calls the read loop makes, named to say which of them the database fails. */
  datatype Call = InChatQuery | InsertMessage | FriendsQuery | CreateChat

  /**
   * The writer's filter: a "new_message" item goes out when its chat is in
   * the connection's snapshot, a "new_chat" item when the user is among its
   * members; an item that does not decode, or of any other type, is skipped.
   */
  predicate Forwards(c: Client, item: Frame) {
    match DecodeIncomingBase(item)
    case None => false
    case Some(base) =>
      if base.typ == "new_message" then
        DecodeReceivedNewMessage(item).Some? && DecodeReceivedNewMessage(item).value.chatId in c.chatIds
      else if base.typ == "new_chat" then
        DecodeReceivedNewChat(item).Some? && c.userId in DecodeReceivedNewChat(item).value.members
      else false
  }

  /** The items the read loop broadcasts reach, through the writer, exactly the intended users. */
  lemma ForwardsByAudience(c: Client, m: ReceivedNewMessage, n: ReceivedNewChat)
    requires m.typ == "new_message" && n.typ == "new_chat"
    ensures Forwards(c, EncodeReceivedNewMessage(m)) <==> m.chatId in c.chatIds
    ensures Forwards(c, EncodeReceivedNewChat(n)) <==> c.userId in n.members
  {
  }

  /** Whether a connection's channel is full when the dispatcher offers it an item. */
  predicate Full(clients: map<ConnId, Client>, capacity: nat, k: ConnId)
    requires k in clients
  {
    |clients[k].queue| >= capacity
  }

  /** The connections the dispatcher closes and drops once it has offered the item to `visited`. */
  function Refused(clients: map<ConnId, Client>, capacity: nat, visited: set<ConnId>): (r: set<ConnId>)
    ensures r <= clients.Keys * visited
  {
    set k | k in clients && k in visited && Full(clients, capacity, k)
  }

  /**
   * The registry once `item` has been offered to `visited`: each visited
   * connection with room holds the item at the end of its queue, each full
   * one is gone; the rest are as they were.
   */
  function OfferedTo(clients: map<ConnId, Client>, item: Frame, capacity: nat, visited: set<ConnId>): (r: map<ConnId, Client>)
    ensures r.Keys == clients.Keys - Refused(clients, capacity, visited)
    ensures forall k | k in r :: r[k].userId == clients[k].userId && r[k].chatIds == clients[k].chatIds
    ensures forall k | k in r :: clients[k].queue <= r[k].queue
  {
    map k | k in clients && !(k in visited && Full(clients, capacity, k)) ::
      if k in visited then clients[k].(queue := clients[k].queue + [item]) else clients[k]
  }

  /** Offering to one more connection changes only its own entry. */
  lemma OfferStep(clients: map<ConnId, Client>, item: Frame, capacity: nat, visited: set<ConnId>, k: ConnId)
    requires k in clients && k !in visited
    ensures var before := OfferedTo(clients, item, capacity, visited);
            var after := OfferedTo(clients, item, capacity, visited + {k});
            && k in before && before[k] == clients[k]
            && after == (if Full(clients, capacity, k) then before - {k}
                         else before[k := clients[k].(queue := clients[k].queue + [item])])
            && Refused(clients, capacity, visited + {k}) ==
               Refused(clients, capacity, visited) + (if Full(clients, capacity, k) then {k} else {})
  {
  }

  /**
   * Every registered connection is offered every item, whatever its
   * audience: one with room receives it, one without is dropped.
   */
  lemma OfferedToAll(clients: map<ConnId, Client>, item: Frame, capacity: nat, k: ConnId)
    requires k in clients
    ensures var r := OfferedTo(clients, item, capacity, clients.Keys);
            && (|clients[k].queue| < capacity <==> k in r)
            && (k in r ==> r[k].queue == clients[k].queue + [item])
  {
  }

  /** The client loop of handleMessages for one item. */
  method Offer(clients: map<ConnId, Client>, item: Frame, capacity: nat)
    returns (registry: map<ConnId, Client>, drops: set<ConnId>)
    ensures registry == OfferedTo(clients, item, capacity, clients.Keys)
    ensures drops == Refused(clients, capacity, clients.Keys)
  {
    registry := clients;
    drops := {};
    var todo := clients.Keys;
    while todo != {}
      invariant todo <= clients.Keys
      invariant registry == OfferedTo(clients, item, capacity, clients.Keys - todo)
      invariant drops == Refused(clients, capacity, clients.Keys - todo)
      decreases todo
    {
      var k :| k in todo;
      OfferStep(clients, item, capacity, clients.Keys - todo, k);
      assert clients.Keys - (todo - {k}) == (clients.Keys - todo) + {k};
      todo := todo - {k};
      var c := registry[k];
      if |c.queue| < capacity {
        registry := registry[k := c.(queue := c.queue + [item])];
      } else {
        drops := drops + {k};
        registry := registry - {k};
      }
    }
    assert clients.Keys - todo == clients.Keys;
  }

  /** The member check of the "new_chat" branch: every requested member is in the creator's friend set. */
  method MembersAreFriends(members: seq<int>, friendList: set<int>) returns (allFriends: bool)
    ensures allFriends <==> forall m :: m in members ==> m in friendList
  {
    allFriends := true;
    for i := 0 to |members|
      invariant allFriends <==> forall j :: 0 <= j < i ==> members[j] in friendList
    {
      if members[i] !in friendList {
        allFriends := false;
      }
    }
    if !allFriends {
      var j :| 0 <= j < |members| && members[j] !in friendList;
      var m := members[j];
      assert m in members && m !in friendList;
    } else {
      forall m | m in members
        ensures m in friendList
      {
        var j :| 0 <= j < |members| && members[j] == m;
      }
    }
  }

  class CommunicatorHub {
    var clients: map<ConnId, Client>
    var broadcast: seq<Frame>
    /** Connections whose send channel handleMessages has closed. */
    var closed: set<ConnId>
    /** Connections out of the registry whose writer still holds items, which it goes on filtering and writing. */
    var detached: map<ConnId, Client>
    var identities: map<ConnId, int>
    var nextConn: ConnId
    const capacity: nat
    const chats: ChatTables
    const friends: FriendTables
    const sessions: SessionTable

    ghost predicate Valid()
      reads this
    {
      && clients.Keys <= identities.Keys
      && (forall k | k in clients :: clients[k].userId == identities[k] && |clients[k].queue| <= capacity)
      && closed <= identities.Keys
      && closed !! clients.Keys
      && detached.Keys <= identities.Keys
      && detached.Keys !! clients.Keys
      && (forall k | k in identities :: k < nextConn)
    }

    constructor (capacity: nat, chats: ChatTables, friends: FriendTables, sessions: SessionTable)
      ensures Valid()
      ensures clients == map[] && broadcast == [] && closed == {} && detached == map[] && identities == map[] && nextConn == 0
      ensures this.capacity == capacity && this.chats == chats && this.friends == friends && this.sessions == sessions
    {
      this.clients := map[];
      this.broadcast := [];
      this.closed := {};
      this.detached := map[];
      this.identities := map[];
      this.nextConn := 0;
      this.capacity := capacity;
      this.chats := chats;
      this.friends := friends;
      this.sessions := sessions;
    }

    /** serveCommunicatorWs: authenticate, snapshot the chat ids, upgrade, register. */
    method Serve(token: string, now: int, verifyUp: bool, chatsUp: bool, upgradeOk: bool) returns (id: Option<ConnId>)
      requires Valid()
      modifies this
      ensures Valid()
      ensures id.Some? <==> Auth.AuthenticateWebSocket(token, sessions, now, verifyUp) != -1 && chatsUp && upgradeOk
      ensures id.Some? ==>
                var userId := Auth.AuthenticateWebSocket(token, sessions, now, verifyUp);
                && id.value == old(nextConn) && id.value !in old(identities)
                && clients == old(clients)[id.value := Client(userId, UserChatIds(chats.chatUsers, userId), [])]
                && identities == old(identities)[id.value := userId]
      ensures id.None? ==> clients == old(clients) && identities == old(identities)
      ensures broadcast == old(broadcast) && closed == old(closed) && detached == old(detached)
    {
      var userId := Auth.AuthenticateWebSocket(token, sessions, now, verifyUp);
      if userId == -1 { return None; }
      var chatIds := chats.GetUserChats(userId, chatsUp);
      if chatIds.None? { return None; }
      if !upgradeOk { return None; }
      var conn := nextConn;
      clients := clients[conn := Client(userId, chatIds.value, [])];
      identities := identities[conn := userId];
      nextConn := nextConn + 1;
      id := Some(conn);
    }

    /**
     * One iteration of handleReads. A "new_message" is stored and broadcast
     * as sent by the connection's user (the membership check fails only when
     * its query does); a "new_chat" needs every member to be a friend of the
     * creator, who is appended last. Any failure skips the frame; the
     * registry never changes.
     */
    method ReadStep(id: ConnId, frame: Frame, now: int, failing: set<Call>) returns (event: Option<Frame>)
      requires Valid() && chats.Valid() && friends.Valid() && id in identities
      modifies this, chats
      ensures Valid() && chats.Valid()
      ensures clients == old(clients) && closed == old(closed) && detached == old(detached)
      ensures identities == old(identities) && nextConn == old(nextConn)
      ensures broadcast == old(broadcast) + (if event.Some? then [event.value] else [])
      ensures event.None? ==> chats.messages == old(chats.messages) && chats.chats == old(chats.chats) && chats.chatUsers == old(chats.chatUsers)
      ensures DecodeIncomingBase(frame).Some? && DecodeIncomingBase(frame).value.typ == "new_message" ==>
                chats.chats == old(chats.chats) && chats.chatUsers == old(chats.chatUsers) && chats.nextChatId == old(chats.nextChatId)
      ensures DecodeIncomingBase(frame).Some? && DecodeIncomingBase(frame).value.typ == "new_chat" ==>
                chats.messages == old(chats.messages) && chats.nextMessageId == old(chats.nextMessageId)
      ensures DecodeIncomingBase(frame).None? || (DecodeIncomingBase(frame).value.typ != "new_message" && DecodeIncomingBase(frame).value.typ != "new_chat") ==>
                unchanged(chats)
      ensures match DecodeIncomingBase(frame)
        case None => event.None?
        case Some(base) =>
          && (base.typ != "new_message" && base.typ != "new_chat" ==> event.None?)
          && (base.typ == "new_message" ==>
                match DecodeSentNewMessage(frame)
                case None => event.None?
                case Some(m) =>
                  && (event.Some? <==> InChatQuery !in failing && InsertMessage !in failing && m.chatId in old(chats.chats))
                  && (event.Some? ==>
                        && chats.messages == old(chats.messages) + [MessageRow(old(chats.nextMessageId), m.chatId, identities[id], m.content, now)]
                        && event.value == EncodeReceivedNewMessage(ReceivedNewMessage("new_message", m.chatId, identities[id], m.content, now))))
          && (base.typ == "new_chat" ==>
                match DecodeSentNewChat(frame)
                case None => event.None?
                case Some(c) =>
                  var members := c.members + [identities[id]];
                  && (event.Some? <==>
                        && FriendsQuery !in failing && (forall m :: m in c.members ==> (identities[id], m) in friends.friends)
                        && CreateChat !in failing && Distinct(members))
                  && (event.Some? ==>
                        var chatId := old(chats.nextChatId);
                        && chats.chats == old(chats.chats)[chatId := ChatRow(|members| > 2, StoredName(c.name))]
                        && chats.chatUsers == old(chats.chatUsers) + MemberRows(chatId, members)
                        && event.value == EncodeReceivedNewChat(ReceivedNewChat("new_chat", chatId, members, c.name, now))))
    {
      var base := DecodeIncomingBase(frame);
      if base.None? { return None; }
      var userId := identities[id];
      if base.value.typ == "new_message" {
        var decoded := DecodeSentNewMessage(frame);
        if decoded.None? { return None; }
        var m := decoded.value;
        var failed := chats.IsUserInChat(userId, m.chatId, InChatQuery !in failing);
        if failed { return None; }
        var messageId := chats.NewMessage(m.chatId, userId, m.content, now, InsertMessage !in failing);
        if messageId == -1 { return None; }
        event := Some(EncodeReceivedNewMessage(ReceivedNewMessage("new_message", m.chatId, userId, m.content, now)));
      } else if base.value.typ == "new_chat" {
        var decoded := DecodeSentNewChat(frame);
        if decoded.None? { return None; }
        var c := decoded.value;
        var friendList := friends.GetFriends(userId, FriendsQuery !in failing);
        if friendList.None? { return None; }
        var membersAreFriends := MembersAreFriends(c.members, friendList.value);
        if !membersAreFriends { return None; }
        var members := c.members + [userId];
        var chatId := chats.InitNewChat(c.name, members, CreateChat !in failing);
        if chatId == -1 { return None; }
        event := Some(EncodeReceivedNewChat(ReceivedNewChat("new_chat", chatId, members, c.name, now)));
      } else {
        return None;
      }
      broadcast := broadcast + [event.value];
    }

    /**
     * The teardown of handleReads after a read error: the connection leaves
     * the registry, and its writer keeps the items it holds.
     */
    method ReaderFailed(id: ConnId)
      requires Valid()
      modifies this
      ensures Valid()
      ensures clients == old(clients) - {id}
      ensures detached == if id in old(clients) then old(detached)[id := old(clients)[id]] else old(detached)
      ensures broadcast == old(broadcast) && closed == old(closed) && identities == old(identities) && nextConn == old(nextConn)
    {
      if id in clients {
        detached := detached[id := clients[id]];
      }
      clients := clients - {id};
    }

    /**
     * One iteration of handleWrites, for a connection in the registry or one
     * that has left it: the oldest held item is taken; it is written only if
     * the filter forwards it; a write error stops the writer and the
     * connection is gone. `written` is the item that reached the socket.
     */
    method WriterStep(id: ConnId, writeOk: bool) returns (written: Option<Frame>)
      requires Valid()
      modifies this
      ensures Valid()
      ensures id in old(clients) ==>
                var c := old(clients)[id];
                && detached == old(detached)
                && written == (if c.queue != [] && Forwards(c, c.queue[0]) && writeOk then Some(c.queue[0]) else None)
                && clients == if c.queue == [] then old(clients)
                              else if Forwards(c, c.queue[0]) && !writeOk then old(clients) - {id}
                              else old(clients)[id := c.(queue := c.queue[1..])]
      ensures id in old(detached) ==>
                var c := old(detached)[id];
                && clients == old(clients)
                && written == (if c.queue != [] && Forwards(c, c.queue[0]) && writeOk then Some(c.queue[0]) else None)
                && detached == if c.queue == [] then old(detached)
                               else if Forwards(c, c.queue[0]) && !writeOk then old(detached) - {id}
                               else old(detached)[id := c.(queue := c.queue[1..])]
      ensures id !in old(clients) && id !in old(detached) ==>
                written.None? && clients == old(clients) && detached == old(detached)
      ensures broadcast == old(broadcast) && closed == old(closed) && identities == old(identities) && nextConn == old(nextConn)
    {
      if id in clients {
        var c := clients[id];
        if c.queue == [] { return None; }
        var item := c.queue[0];
        clients := clients[id := c.(queue := c.queue[1..])];
        if !Forwards(c, item) { return None; }
        if !writeOk {
          clients := clients - {id};
          return None;
        }
        written := Some(item);
      } else if id in detached {
        var c := detached[id];
        if c.queue == [] { return None; }
        var item := c.queue[0];
        detached := detached[id := c.(queue := c.queue[1..])];
        if !Forwards(c, item) { return None; }
        if !writeOk {
          detached := detached - {id};
          return None;
        }
        written := Some(item);
      } else {
        written := None;
      }
    }

    /**
     * One iteration of handleMessages: the oldest broadcast item is offered
     * to every connection; the full ones are closed, and their writers keep
     * the items they already hold.
     */
    method HandleMessages()
      requires Valid()
      modifies this
      ensures Valid()
      ensures identities == old(identities) && nextConn == old(nextConn)
      ensures old(broadcast) == [] ==>
                broadcast == [] && clients == old(clients) && closed == old(closed) && detached == old(detached)
      ensures old(broadcast) != [] ==>
                var drops := Refused(old(clients), capacity, old(clients).Keys);
                && broadcast == old(broadcast)[1..]
                && clients == OfferedTo(old(clients), old(broadcast)[0], capacity, old(clients).Keys)
                && closed == old(closed) + drops
                && detached == old(detached) + map k | k in drops :: old(clients)[k]
    {
      if broadcast == [] { return; }
      var item := broadcast[0];
      broadcast := broadcast[1..];
      var registry, drops := Offer(clients, item, capacity);
      closed := closed + drops;
      detached := detached + map k | k in drops :: clients[k];
      clients := registry;
    }
  }
}

=== FILE: profile_storage.dfy ===
/**
 * The `profiles` table (backend/storage/profile.go). The table declares no
 * key, so it is a sequence of rows; NULL columns are None. Updates touch
 * every row carrying the user id.
 */
module ProfileStorage {
  import opened Wrappers

  datatype ProfileRow = ProfileRow(userId: int, name: Option<string>, surname: Option<string>, bio: Option<string>, pfp: Option<string>)

  /** types.Profile: what GetProfileByID scans a row into. */
  datatype Profile = Profile(id: int, name: string, surname: string, bio: string, pfp: string)

  const ZeroProfile := Profile(0, "", "", "", "")

  /** Why GetProfileByID failed: the query, no matching row, or a NULL column scanned into a string. */
  datatype ProfileError = QueryFailed | NoRows | NullColumn

  datatype Column = Name | Surname | Bio | Pfp

  /** The statements of UpdateProfile's transaction, to say which of them the database fails. */
  datatype Statement = Begin | Set(column: Column) | Commit

  /** The row InitProfile inserts: only user_id is given, every other column is NULL. */
  function FreshRow(id: int): ProfileRow {
    ProfileRow(id, None, None, None, None)
  }

  function SetColumn(row: ProfileRow, column: Column, v: string): ProfileRow {
    match column
    case Name => row.(name := Some(v))
    case Surname => row.(surname := Some(v))
    case Bio => row.(bio := Some(v))
    case Pfp => row.(pfp := Some(v))
  }

  /** One `UPDATE profiles SET column = v WHERE user_id = id`. */
  function UpdateColumn(rows: seq<ProfileRow>, id: int, column: Column, v: string): (r: seq<ProfileRow>)
    ensures |r| == |rows|
    ensures forall i :: 0 <= i < |rows| ==> r[i] == if rows[i].userId == id then SetColumn(rows[i], column, v) else rows[i]
  {
    seq(|rows|, i requires 0 <= i < |rows| => if rows[i].userId == id then SetColumn(rows[i], column, v) else rows[i])
  }

  /** UpdateProfile's update of one column: skipped when the new value is empty. */
  function UpdateIfGiven(rows: seq<ProfileRow>, id: int, column: Column, v: string): seq<ProfileRow> {
    if v == "" then rows else UpdateColumn(rows, id, column, v)
  }

  /** The rows a committed UpdateProfile leaves: name, surname, bio, pfp in that order. */
  function UpdatedRows(rows: seq<ProfileRow>, id: int, name: string, surname: string, bio: string, pfp: string): seq<ProfileRow> {
    var r1 := UpdateIfGiven(rows, id, Name, name);
    var r2 := UpdateIfGiven(r1, id, Surname, surname);
    var r3 := UpdateIfGiven(r2, id, Bio, bio);
    UpdateIfGiven(r3, id, Pfp, pfp)
  }

  /** A column after a partial update: a non-empty value overwrites, an empty one keeps the old value. */
  function Overwrite(current: Option<string>, v: string): Option<string> {
    if v == "" then current else Some(v)
  }

  /**
   * Each column of each row of user `id` is overwritten iff its new value is
   * non-empty; rows of other users are untouched.
   */
  lemma UpdatedRowsFieldwise(rows: seq<ProfileRow>, id: int, name: string, surname: string, bio: string, pfp: string)
    ensures |UpdatedRows(rows, id, name, surname, bio, pfp)| == |rows|
    ensures forall i :: 0 <= i < |rows| ==>
      UpdatedRows(rows, id, name, surname, bio, pfp)[i] ==
        if rows[i].userId == id
        then ProfileRow(id, Overwrite(rows[i].name, name), Overwrite(rows[i].surname, surname),
                        Overwrite(rows[i].bio, bio), Overwrite(rows[i].pfp, pfp))
        else rows[i]
  {
  }

  /** Applying the same update twice is applying it once. */
  lemma UpdateIdempotent(rows: seq<ProfileRow>, id: int, name: string, surname: string, bio: string, pfp: string)
    ensures UpdatedRows(UpdatedRows(rows, id, name, surname, bio, pfp), id, name, surname, bio, pfp)
         == UpdatedRows(rows, id, name, surname, bio, pfp)
  {
  }

  /** An update whose four values are all empty changes nothing. */
  lemma EmptyUpdateChangesNothing(rows: seq<ProfileRow>, id: int)
    ensures UpdatedRows(rows, id, "", "", "", "") == rows
  {
  }

  /** The index of the first row of user `id`, the one QueryRow scans. */
  function FirstRowOf(rows: seq<ProfileRow>, id: int): (k: Option<nat>)
    ensures k.Some? ==> k.value < |rows| && rows[k.value].userId == id
    ensures k.Some? ==> forall j :: 0 <= j < k.value ==> rows[j].userId != id
    ensures k.None? ==> forall j :: 0 <= j < |rows| ==> rows[j].userId != id
  {
    if rows == [] then None
    else if rows[0].userId == id then Some(0)
    else match FirstRowOf(rows[1..], id)
      case None => None
      case Some(k) => Some(k + 1)
  }

  predicate NoNulls(row: ProfileRow) {
    row.name.Some? && row.surname.Some? && row.bio.Some? && row.pfp.Some?
  }

  /**
   * GetProfileByID: the zero Profile together with an error when the query
   * fails, when there is no row, or when a column is NULL (Go cannot scan
   * NULL into a string); otherwise the first row's columns.
   */
  function GetProfileByID(rows: seq<ProfileRow>, id: int, up: bool): (r: (Profile, Option<ProfileError>))
    ensures r.1.Some? ==> r.0 == ZeroProfile
    ensures !up ==> r.1 == Some(QueryFailed)
    ensures up && (forall j :: 0 <= j < |rows| ==> rows[j].userId != id) ==> r.1 == Some(NoRows)
    ensures r.1.None? ==> exists j :: 0 <= j < |rows| && rows[j].userId == id && NoNulls(rows[j])
                                     && r.0 == Profile(id, rows[j].name.value, rows[j].surname.value, rows[j].bio.value, rows[j].pfp.value)
  {
    if !up then (ZeroProfile, Some(QueryFailed))
    else match FirstRowOf(rows, id)
      case None => (ZeroProfile, Some(NoRows))
      case Some(k) =>
        var row := rows[k];
        if NoNulls(row)
        then (Profile(row.userId, row.name.value, row.surname.value, row.bio.value, row.pfp.value), None)
        else (ZeroProfile, Some(NullColumn))
  }

  /** A profile just created by InitProfile cannot be read back: its NULL columns do not scan. */
  lemma FreshProfileUnreadable(rows: seq<ProfileRow>, id: int)
    requires forall j :: 0 <= j < |rows| ==> rows[j].userId != id
    ensures GetProfileByID(rows + [FreshRow(id)], id, true) == (ZeroProfile, Some(NullColumn))
  {
    var all := rows + [FreshRow(id)];
    assert all[|rows|].userId == id;
    assert FirstRowOf(all, id) == Some(|rows|);
  }

  class ProfileTable {
    var rows: seq<ProfileRow>

    constructor ()
      ensures rows == []
    {
      rows := [];
    }

    /** InitProfile: adds a row for the user with name, surname, bio and pfp NULL. */
    method InitProfile(id: int, up: bool) returns (ok: bool)
      modifies this
      ensures ok == up
      ensures rows == if ok then old(rows) + [FreshRow(id)] else old(rows)
    {
      ok := up;
      if ok {
        rows := rows + [FreshRow(id)];
      }
    }

    /**
     * UpdateProfile, one transaction: one UPDATE per non-empty value. If any
     * statement that runs fails, the transaction rolls back and no column
     * changes.
     */
    method UpdateProfile(id: int, name: string, surname: string, bio: string, pfp: string, failing: set<Statement>)
      returns (ok: bool)
      modifies this
      ensures ok <==> && Begin !in failing && Commit !in failing
                      && (name != "" ==> Set(Name) !in failing) && (surname != "" ==> Set(Surname) !in failing)
                      && (bio != "" ==> Set(Bio) !in failing) && (pfp != "" ==> Set(Pfp) !in failing)
      ensures rows == if ok then UpdatedRows(old(rows), id, name, surname, bio, pfp) else old(rows)
    {
      if Begin in failing { return false; }
      var tx := rows;
      if name != "" {
        if Set(Name) in failing { return false; }
        tx := UpdateColumn(tx, id, Name, name);
      }
      if surname != "" {
        if Set(Surname) in failing { return false; }
        tx := UpdateColumn(tx, id, Surname, surname);
      }
      if bio != "" {
        if Set(Bio) in failing { return false; }
        tx := UpdateColumn(tx, id, Bio, bio);
      }
      if pfp != "" {
        if Set(Pfp) in failing { return false; }
        tx := UpdateColumn(tx, id, Pfp, pfp);
      }
      if Commit in failing { return false; }
      rows := tx;
      ok := true;
    }
  }
}

=== FILE: session_storage.dfy ===
/**
 * The `sessions` table (backend/storage/session.go): token -> (user,
 * creation time, expiry, validity), checked against an integer clock in
 * seconds. The 32 random bytes of a new token are a parameter.
 */
module SessionStorage {
  import opened Wrappers
  import opened Text

  /** SESSION_DURATION, 24 hours, in clock seconds. */
  const SessionDuration: int := 24 * 60 * 60

  datatype SessionRow = SessionRow(userId: int, createdAt: int, expiresAt: int, isValid: bool)

  /**
   * The token CreateSession's INSERT computes: the hex of the user id's
   * decimal text followed by the hex of 32 random bytes.
   */
  function SessionToken(userId: int, random: string): (t: string)
    requires |random| == 32 && IsBytes(random)
    ensures |t| == 2 * |DecimalText(userId)| + 64 && IsHex(t)
    ensures t[|t| - 64..] == HexEncode(random)
  {
    HexEncode(DecimalText(userId)) + HexEncode(random)
  }

  /** A token names the user it was made for, and the random bytes it was made from. */
  lemma TokenIdentifiesUser(u1: int, r1: string, u2: int, r2: string)
    requires |r1| == 32 && IsBytes(r1) && |r2| == 32 && IsBytes(r2)
    requires SessionToken(u1, r1) == SessionToken(u2, r2)
    ensures u1 == u2 && r1 == r2
  {
    var t := SessionToken(u1, r1);
    var n := 2 * |DecimalText(u1)|;
    assert |DecimalText(u1)| == |DecimalText(u2)|;
    assert t[..n] == HexEncode(DecimalText(u1)) == HexEncode(DecimalText(u2));
    assert t[n..] == HexEncode(r1) == HexEncode(r2);
    HexEncodeInjective(DecimalText(u1), DecimalText(u2));
    DecimalTextInjective(u1, u2);
    HexEncodeInjective(r1, r2);
  }

  /** The error VerifySession reports: the query failed, no row matched, or the session is not valid. */
  datatype SessionError = QueryFailed | NoSuchSession | Expired | Invalid

  /** VerifySession's (isValid, userId, err). */
  datatype Verification = Verification(isValid: bool, userId: int, err: Option<SessionError>)

  /** The rows once KillSession(token) has run: that session, if any, is no longer valid. */
  function Killed(sessions: map<string, SessionRow>, token: string): (r: map<string, SessionRow>)
    ensures r.Keys == sessions.Keys
    ensures token in r ==> !r[token].isValid && r[token] == sessions[token].(isValid := false)
    ensures forall t :: t in r && t != token ==> r[t] == sessions[t]
  {
    if token in sessions then sessions[token := sessions[token].(isValid := false)] else sessions
  }

  /** Killing a session twice is the same as killing it once. */
  lemma KilledIdempotent(sessions: map<string, SessionRow>, token: string)
    ensures Killed(Killed(sessions, token), token) == Killed(sessions, token)
  {
  }

  class SessionTable {
    var sessions: map<string, SessionRow>

    constructor ()
      ensures sessions == map[]
    {
      sessions := map[];
    }

    /**
     * VerifySession at clock `now`: a session past its expiry is not valid, a
     * not-valid result always carries an error ("session invalid" replaces
     * "session expired"), and the row's user id comes back either way.
     */
    function VerifySession(token: string, now: int, up: bool): (v: Verification)
      reads this
      ensures !up ==> v == Verification(false, -1, Some(QueryFailed))
      ensures up && token !in sessions ==> v == Verification(false, -1, Some(NoSuchSession))
      ensures up && token in sessions ==> v.userId == sessions[token].userId
      ensures v.isValid <==> up && token in sessions && sessions[token].isValid && now <= sessions[token].expiresAt
      ensures v.isValid <==> v.err.None?
      ensures up && token in sessions && !v.isValid ==> v.err == Some(Invalid)
      ensures v.err != Some(Expired)
    {
      if !up then Verification(false, -1, Some(QueryFailed))
      else if token !in sessions then Verification(false, -1, Some(NoSuchSession))
      else
        var row := sessions[token];
        var expired := now > row.expiresAt;
        var valid := row.isValid && !expired;
        var err1 := if expired then Some(Expired) else None;
        var err2 := if !valid then Some(Invalid) else err1;
        Verification(valid, row.userId, err2)
    }

    /** CreateSession: a fresh row, valid, expiring 24 hours after `now`; a token already stored violates UNIQUE. */
    method CreateSession(userId: int, now: int, random: string, up: bool) returns (token: string)
      requires |random| == 32 && IsBytes(random)
      modifies this
      ensures token != "" <==> up && SessionToken(userId, random) !in old(sessions)
      ensures token != "" ==> && token == SessionToken(userId, random)
                              && sessions == old(sessions)[token := SessionRow(userId, now, now + SessionDuration, true)]
                              && VerifySession(token, now, true) == Verification(true, userId, None)
      ensures token == "" ==> sessions == old(sessions)
    {
      var t := SessionToken(userId, random);
      if !up || t in sessions {
        return "";
      }
      sessions := sessions[t := SessionRow(userId, now, now + SessionDuration, true)];
      token := t;
    }

    /** KillSession: marks the session not valid; an unknown token changes nothing and is no error. */
    method KillSession(token: string, up: bool) returns (ok: bool)
      modifies this
      ensures ok == up
      ensures sessions == if ok then Killed(old(sessions), token) else old(sessions)
      ensures ok ==> forall now :: !VerifySession(token, now, true).isValid
    {
      if !up { return false; }
      sessions := Killed(sessions, token);
      ok := true;
    }
  }
}

=== FILE: text.dfy ===
/**
 * Text conversions the core relies on: the decimal text of an integer (Go's
 * strconv and Postgres' int::text), its inverse strconv.Atoi, Postgres'
 * encode(..., 'hex') over ASCII text, and the UTF-8 byte length Go's len()
 * returns for a string.
 */
module Text {
  import opened Wrappers

  predicate IsDigit(c: char) {
    '0' <= c <= '9'
  }

  predicate AllDigits(s: string) {
    forall i :: 0 <= i < |s| ==> IsDigit(s[i])
  }

  function DigitChar(d: nat): (c: char)
    requires d < 10
    ensures IsDigit(c)
  {
    (48 + d) as char
  }

  function DigitValue(c: char): (d: nat)
    requires IsDigit(c)
    ensures d < 10 && DigitChar(d) == c
  {
    (c as int) - 48
  }

  /** The digits of n, most significant first, without leading zeros. */
  function Digits(n: nat): (s: string)
    ensures |s| > 0 && AllDigits(s)
    ensures n >= 10 ==> s[0] != '0'
    decreases n
  {
    if n < 10 then [DigitChar(n)] else Digits(n / 10) + [DigitChar(n % 10)]
  }

  /** The decimal text of an integer: a '-' for negatives, then its digits. */
  function DecimalText(n: int): (s: string)
    ensures |s| > 0
    ensures forall i :: 0 <= i < |s| ==> s[i] as int < 128
  {
    if n < 0 then "-" + Digits(-n) else Digits(n)
  }

  /** The number a non-empty run of decimal digits denotes. */
  function DigitsValue(s: string): nat
    requires AllDigits(s)
  {
    if s == [] then 0 else 10 * DigitsValue(s[..|s| - 1]) + DigitValue(s[|s| - 1])
  }

  /** The value an optional '+' or '-' followed by at least one decimal digit denotes, of any size. */
  function SignedDecimalValue(s: string): (r: Option<int>)
    ensures r.Some? ==> |s| > 0
  {
    if |s| > 0 && (s[0] == '-' || s[0] == '+') then
      var body := s[1..];
      if |body| > 0 && AllDigits(body)
      then var v: int := DigitsValue(body); Some(if s[0] == '-' then -v else v)
      else None
    else if |s| > 0 && AllDigits(s) then Some(DigitsValue(s))
    else None
  }

  /** The range of Go's int, 64 bits wide on the platforms the server targets. */
  const MinInt64: int := -0x8000_0000_0000_0000
  const MaxInt64: int := 0x7FFF_FFFF_FFFF_FFFF

  predicate IsInt64(n: int) {
    MinInt64 <= n <= MaxInt64
  }

  /**
   * strconv.Atoi: the text must be a signed decimal, and its value must fit
   * in an int; a value out of range fails with ErrRange, like bad syntax.
   */
  function ParseDecimal(s: string): (r: Option<int>)
    ensures r.Some? ==> |s| > 0 && IsInt64(r.value)
  {
    match SignedDecimalValue(s)
    case Some(v) => if IsInt64(v) then Some(v) else None
    case None => None
  }

  lemma {:induction false} DigitsRoundTrip(n: nat)
    ensures DigitsValue(Digits(n)) == n
    decreases n
  {
    if n >= 10 {
      var s := Digits(n);
      assert s[..|s| - 1] == Digits(n / 10);
      DigitsRoundTrip(n / 10);
    }
  }

  /** Every integer's decimal text reads back as that integer. */
  lemma SignedDecimalRoundTrip(n: int)
    ensures SignedDecimalValue(DecimalText(n)) == Some(n)
  {
    if n < 0 {
      var s := DecimalText(n);
      assert s[1..] == Digits(-n);
      DigitsRoundTrip(-n);
    } else {
      DigitsRoundTrip(n);
    }
  }

  /** Atoi reads back the decimal text of every int, and refuses the text of any integer out of int's range. */
  lemma DecimalRoundTrip(n: int)
    ensures ParseDecimal(DecimalText(n)) == if IsInt64(n) then Some(n) else None
  {
    SignedDecimalRoundTrip(n);
  }

  /** Distinct integers have distinct decimal texts. */
  lemma DecimalTextInjective(a: int, b: int)
    requires DecimalText(a) == DecimalText(b)
    ensures a == b
  {
    SignedDecimalRoundTrip(a);
    SignedDecimalRoundTrip(b);
  }

  // ---- hex ----

  predicate IsHexChar(c: char) {
    '0' <= c <= '9' || 'a' <= c <= 'f'
  }

  predicate IsHex(s: string) {
    forall i :: 0 <= i < |s| ==> IsHexChar(s[i])
  }

  /** A lower-case hex digit. */
  function HexDigit(d: nat): (c: char)
    requires d < 16
    ensures IsHexChar(c)
  {
    if d < 10 then (48 + d) as char else (87 + d) as char
  }

  lemma HexDigitInjective(a: nat, b: nat)
    requires a < 16 && b < 16 && HexDigit(a) == HexDigit(b)
    ensures a == b
  {
  }

  predicate IsBytes(s: string) {
    forall i :: 0 <= i < |s| ==> s[i] as int < 256
  }

  /** Postgres encode(text::bytea, 'hex') of single-byte text: two lower-case digits per byte. */
  function HexEncode(s: string): (h: string)
    requires IsBytes(s)
    ensures |h| == 2 * |s| && IsHex(h)
  {
    if s == [] then []
    else
      var b := s[0] as int;
      [HexDigit(b / 16), HexDigit(b % 16)] + HexEncode(s[1..])
  }

  /** Hex encoding loses nothing: equal encodings come from equal texts. */
  lemma {:induction false} HexEncodeInjective(a: string, b: string)
    requires IsBytes(a) && IsBytes(b) && HexEncode(a) == HexEncode(b)
    ensures a == b
  {
    if a != [] {
      assert |b| == |a|;
      var x, y := a[0] as int, b[0] as int;
      assert HexEncode(a)[0] == HexDigit(x / 16) && HexEncode(b)[0] == HexDigit(y / 16);
      assert HexEncode(a)[1] == HexDigit(x % 16) && HexEncode(b)[1] == HexDigit(y % 16);
      HexDigitInjective(x / 16, y / 16);
      HexDigitInjective(x % 16, y % 16);
      assert HexEncode(a)[2..] == HexEncode(a[1..]);
      assert HexEncode(b)[2..] == HexEncode(b[1..]);
      HexEncodeInjective(a[1..], b[1..]);
      assert a == [a[0]] + a[1..];
      assert b == [b[0]] + b[1..];
    }
  }

  // ---- UTF-8 ----

  /** Bytes UTF-8 needs for one character. */
  function Utf8Width(c: char): (w: nat)
    ensures 1 <= w <= 4
  {
    var cp := c as int;
    if cp < 0x80 then 1 else if cp < 0x800 then 2 else if cp < 0x1_0000 then 3 else 4
  }

  /** Go's len() of a string: its UTF-8 byte count. */
  function Utf8Length(s: string): (n: nat)
    ensures |s| <= n <= 4 * |s|
  {
    if s == [] then 0 else Utf8Width(s[0]) + Utf8Length(s[1..])
  }
}

=== FILE: wire.dfy ===
/**
 * The message structs of backend/types/ws.go and backend/types/types.go,
 * with the decoding Go's json.Unmarshal performs on them and the encoding
 * json.Marshal produces. Timestamps are integer clock readings.
 */
module Wire {
  import opened Wrappers
  import opened Json

  // ---- backend/types/ws.go ----

  /** IncomingBase (and types.go's identical BaseMessageWs): only the type tag. */
  datatype IncomingBase = IncomingBase(typ: string)

  function DecodeIncomingBase(f: Frame): Option<IncomingBase>
  {
    match StructFields(f)
    case None => None
    case Some(fs) =>
      var t := StringField(fs, "type");
      if t.Some? then Some(IncomingBase(t.value)) else None
  }

  /** OutgoingBase: what handlers put on the broadcast channel. */
  datatype OutgoingBase = OutgoingBase(typ: string, data: Value, verifyType: string, verifyIds: seq<int>)

  function DecodeOutgoing(f: Frame): Option<OutgoingBase>
  {
    match StructFields(f)
    case None => None
    case Some(fs) =>
      var t, vt, ids := StringField(fs, "type"), StringField(fs, "verify_type"), IntsField(fs, "verify_id");
      if t.Some? && vt.Some? && ids.Some?
      then Some(OutgoingBase(t.value, RawField(fs, "Data"), vt.value, ids.value))
      else None
  }

  function EncodeOutgoing(o: OutgoingBase): (f: Frame)
    ensures DecodeOutgoing(f) == Some(o)
  {
    var fs := map["type" := Str(o.typ), "Data" := o.data, "verify_type" := Str(o.verifyType), "verify_id" := Ints(o.verifyIds)];
    IntsRoundTrip(fs, "verify_id", o.verifyIds);
    Doc(Obj(fs))
  }

  /** Final: what a recipient is sent; the audience fields are gone. */
  datatype Final = Final(typ: string, data: Value)

  function DecodeFinal(f: Frame): Option<Final>
  {
    match StructFields(f)
    case None => None
    case Some(fs) =>
      var t := StringField(fs, "type");
      if t.Some? then Some(Final(t.value, RawField(fs, "data"))) else None
  }

  function EncodeFinal(x: Final): (f: Frame)
    ensures DecodeFinal(f) == Some(x)
    ensures DecodeIncomingBase(f) == Some(IncomingBase(x.typ))
  {
    Doc(Obj(map["type" := Str(x.typ), "data" := x.data]))
  }

  /** NewMessage: a client's request to post into a chat. */
  datatype NewMessage = NewMessage(typ: string, content: string, chatId: int)

  function DecodeNewMessage(f: Frame): (r: Option<NewMessage>)
    ensures r.Some? ==> DecodeIncomingBase(f) == Some(IncomingBase(r.value.typ))
  {
    match StructFields(f)
    case None => None
    case Some(fs) =>
      var t, c, id := StringField(fs, "type"), StringField(fs, "content"), IntField(fs, "chat_id");
      if t.Some? && c.Some? && id.Some? then Some(NewMessage(t.value, c.value, id.value)) else None
  }

  /** The frame a client sends for a NewMessage. */
  function EncodeNewMessage(m: NewMessage): (f: Frame)
    ensures DecodeNewMessage(f) == Some(m)
  {
    Doc(Obj(map["type" := Str(m.typ), "content" := Str(m.content), "chat_id" := Num(m.chatId)]))
  }

  datatype NewMessageData = NewMessageData(content: string, chatId: int, senderId: int, sentAt: int, messageId: int)

  function NewMessageDataValue(d: NewMessageData): Value
  {
    Obj(map["content" := Str(d.content), "chat_id" := Num(d.chatId), "sender_id" := Num(d.senderId),
            "sent_at" := Num(d.sentAt), "message_id" := Num(d.messageId)])
  }

  /** NewChat: a client's request to open a chat with the listed members. */
  datatype NewChat = NewChat(typ: string, members: seq<int>, chatName: string)

  function DecodeNewChat(f: Frame): (r: Option<NewChat>)
    ensures r.Some? ==> DecodeIncomingBase(f) == Some(IncomingBase(r.value.typ))
  {
    match StructFields(f)
    case None => None
    case Some(fs) =>
      var t, ms, n := StringField(fs, "type"), IntsField(fs, "members"), StringField(fs, "chat_name");
      if t.Some? && ms.Some? && n.Some? then Some(NewChat(t.value, ms.value, n.value)) else None
  }

  function EncodeNewChat(c: NewChat): (f: Frame)
    ensures DecodeNewChat(f) == Some(c)
  {
    var fs := map["type" := Str(c.typ), "members" := Ints(c.members), "chat_name" := Str(c.chatName)];
    IntsRoundTrip(fs, "members", c.members);
    Doc(Obj(fs))
  }

  datatype NewChatData = NewChatData(chatId: int, members: seq<int>, chatName: string, sentAt: int)

  function NewChatDataValue(d: NewChatData): Value
  {
    Obj(map["chat_id" := Num(d.chatId), "members" := Ints(d.members), "chat_name" := Str(d.chatName),
            "sent_at" := Num(d.sentAt)])
  }

  /**
   * AcceptFR / AcceptFRData are used by friendsHandlers.go but not declared in
   * types/ws.go; their JSON names follow IncomingFR and IncomingFRData.
   */
  datatype AcceptFR = AcceptFR(typ: string, senderId: int)

  function DecodeAcceptFR(f: Frame): Option<AcceptFR>
  {
    match StructFields(f)
    case None => None
    case Some(fs) =>
      var t, s := StringField(fs, "type"), IntField(fs, "sender_id");
      if t.Some? && s.Some? then Some(AcceptFR(t.value, s.value)) else None
  }

  function EncodeAcceptFR(a: AcceptFR): (f: Frame)
    ensures DecodeAcceptFR(f) == Some(a)
  {
    Doc(Obj(map["type" := Str(a.typ), "sender_id" := Num(a.senderId)]))
  }

  datatype AcceptFRData = AcceptFRData(senderId: int, accepterId: int)

  function AcceptFRDataValue(d: AcceptFRData): Value
  {
    Obj(map["sender_id" := Num(d.senderId), "accepter_id" := Num(d.accepterId)])
  }

  // ---- backend/types/types.go (the earlier communicator protocol and credentials) ----

  /** SentMessageNewMessageWS. */
  datatype SentNewMessage = SentNewMessage(typ: string, chatId: int, content: string)

  function DecodeSentNewMessage(f: Frame): Option<SentNewMessage>
  {
    match StructFields(f)
    case None => None
    case Some(fs) =>
      var t, id, c := StringField(fs, "type"), IntField(fs, "chat_id"), StringField(fs, "content");
      if t.Some? && id.Some? && c.Some? then Some(SentNewMessage(t.value, id.value, c.value)) else None
  }

  function EncodeSentNewMessage(m: SentNewMessage): (f: Frame)
    ensures DecodeSentNewMessage(f) == Some(m)
    ensures DecodeIncomingBase(f) == Some(IncomingBase(m.typ))
  {
    Doc(Obj(map["type" := Str(m.typ), "chat_id" := Num(m.chatId), "content" := Str(m.content)]))
  }

  /** SentMessageNewChatWS. */
  datatype SentNewChat = SentNewChat(typ: string, members: seq<int>, name: string)

  function DecodeSentNewChat(f: Frame): Option<SentNewChat>
  {
    match StructFields(f)
    case None => None
    case Some(fs) =>
      var t, ms, n := StringField(fs, "type"), IntsField(fs, "members"), StringField(fs, "name");
      if t.Some? && ms.Some? && n.Some? then Some(SentNewChat(t.value, ms.value, n.value)) else None
  }

  function EncodeSentNewChat(c: SentNewChat): (f: Frame)
    ensures DecodeSentNewChat(f) == Some(c)
    ensures DecodeIncomingBase(f) == Some(IncomingBase(c.typ))
  {
    var fs := map["type" := Str(c.typ), "members" := Ints(c.members), "name" := Str(c.name)];
    IntsRoundTrip(fs, "members", c.members);
    Doc(Obj(fs))
  }

  /** ReceivedMessageNewMessageWS. */
  datatype ReceivedNewMessage = ReceivedNewMessage(typ: string, chatId: int, senderId: int, content: string, sentAt: int)

  function DecodeReceivedNewMessage(f: Frame): Option<ReceivedNewMessage>
  {
    match StructFields(f)
    case None => None
    case Some(fs) =>
      var t, id, s, c, at := StringField(fs, "type"), IntField(fs, "chat_id"), IntField(fs, "sender_id"),
                             StringField(fs, "content"), IntField(fs, "sent_at");
      if t.Some? && id.Some? && s.Some? && c.Some? && at.Some?
      then Some(ReceivedNewMessage(t.value, id.value, s.value, c.value, at.value))
      else None
  }

  function EncodeReceivedNewMessage(m: ReceivedNewMessage): (f: Frame)
    ensures DecodeReceivedNewMessage(f) == Some(m)
    ensures DecodeIncomingBase(f) == Some(IncomingBase(m.typ))
  {
    Doc(Obj(map["type" := Str(m.typ), "chat_id" := Num(m.chatId), "sender_id" := Num(m.senderId),
                "content" := Str(m.content), "sent_at" := Num(m.sentAt)]))
  }

  /** ReceivedMessageNewChatWS. */
  datatype ReceivedNewChat = ReceivedNewChat(typ: string, chatId: int, members: seq<int>, name: string, sentAt: int)

  function DecodeReceivedNewChat(f: Frame): Option<ReceivedNewChat>
  {
    match StructFields(f)
    case None => None
    case Some(fs) =>
      var t, id, ms, n, at := StringField(fs, "type"), IntField(fs, "chat_id"), IntsField(fs, "members"),
                              StringField(fs, "name"), IntField(fs, "sent_at");
      if t.Some? && id.Some? && ms.Some? && n.Some? && at.Some?
      then Some(ReceivedNewChat(t.value, id.value, ms.value, n.value, at.value))
      else None
  }

  function EncodeReceivedNewChat(c: ReceivedNewChat): (f: Frame)
    ensures DecodeReceivedNewChat(f) == Some(c)
    ensures DecodeIncomingBase(f) == Some(IncomingBase(c.typ))
  {
    var fs := map["type" := Str(c.typ), "chat_id" := Num(c.chatId), "members" := Ints(c.members),
                  "name" := Str(c.name), "sent_at" := Num(c.sentAt)];
    IntsRoundTrip(fs, "members", c.members);
    Doc(Obj(fs))
  }

  /** Credentials: the login and registration form's `data` value. */
  datatype Credentials = Credentials(email: string, password: string)

  function DecodeCredentials(f: Frame): Option<Credentials>
  {
    match StructFields(f)
    case None => None
    case Some(fs) =>
      var e, p := StringField(fs, "email"), StringField(fs, "password");
      if e.Some? && p.Some? then Some(Credentials(e.value, p.value)) else None
  }

  function EncodeCredentials(c: Credentials): (f: Frame)
    ensures DecodeCredentials(f) == Some(c)
  {
    Doc(Obj(map["email" := Str(c.email), "password" := Str(c.password)]))
  }
}

=== FILE: wrappers.dfy ===
/** Optional values: Go's `(value, ok)` pairs and values that may be missing. */
module Wrappers {
  datatype Option<+T> = None | Some(value: T)
}

=== FILE: ws_friend_handlers.dfy ===
/**
 * handleAcceptFR (backend/ws/friendsHandlers.go): accepting a pending friend
 * request over the WebSocket, announced to both users by userID.
 */
module WsFriendHandlers {
  import opened Wrappers
  import opened Json
  import opened Wire
  import opened FriendsStorage

  /** The store calls the handler makes, named to say which of them the database fails. */
  datatype Call = FriendsQuery | RequestQuery | AcceptTx

  /**
   * handleAcceptFR. `panicked` is set when the handler reaches the log line
   * that formats a nil error: the users are already friends and the query
   * itself succeeded; the handler then stops with no effect.
   */
  method HandleAcceptFR(userId: int, frame: Frame, store: FriendTables, failing: set<Call>)
    returns (event: Option<OutgoingBase>, panicked: bool)
    requires store.Valid()
    modifies store
    ensures store.Valid()
    ensures event.None? ==> store.friends == old(store.friends) && store.requests == old(store.requests)
    ensures Coherent(old(store.friends), old(store.requests)) ==> Coherent(store.friends, store.requests)
    ensures match DecodeAcceptFR(frame)
      case None => event.None? && !panicked
      case Some(m) =>
        var sender := m.senderId;
        && (panicked <==> sender != userId && FriendsQuery !in failing && Related(old(store.friends), userId, sender))
        && (event.Some? <==>
              && sender != userId && FriendsQuery !in failing && !Related(old(store.friends), userId, sender)
              && RequestQuery !in failing && (sender, userId) in old(store.requests) && AcceptTx !in failing)
        && (event.Some? ==>
              && store.friends == AcceptedFriends(old(store.friends), userId, sender)
              && store.requests == old(store.requests) - {(sender, userId)}
              && event.value.typ == "acceptFR"
              && event.value.verifyType == "userID" && event.value.verifyIds == [sender, userId]
              && event.value.data == AcceptFRDataValue(AcceptFRData(sender, userId)))
  {
    panicked := false;
    var decoded := DecodeAcceptFR(frame);
    if decoded.None? { return None, false; }
    var senderId := decoded.value.senderId;
    if userId == senderId { return None, false; }
    var areFriends := store.AreFriends(userId, senderId, FriendsQuery !in failing);
    if areFriends.None? { return None, false; }
    if areFriends.value { return None, true; }
    var isRequested := store.IsRequestedFriend(senderId, userId, RequestQuery !in failing);
    if isRequested.None? || !isRequested.value { return None, false; }
    ghost var before := store.requests;
    var ok := store.AcceptFriendRequest(userId, senderId, AcceptTx !in failing);
    if !ok { return None, false; }
    var data := AcceptFRData(senderId, userId);
    event := Some(OutgoingBase("acceptFR", AcceptFRDataValue(data), "userID", [senderId, userId]));
    AcceptKeepsCoherent(old(store.friends), before, userId, senderId);
  }
}

=== FILE: ws_handlers.dfy ===
/**
 * handleMessage and handleNewChat (backend/ws/handlers.go): guard chains
 * that end in one store write and, only when the write succeeded, one
 * OutgoingBase event for the broadcast channel.
 */
module WsHandlers {
  import opened Wrappers
  import opened Json
  import opened Wire
  import opened ChatStorage

  /** The store calls the handlers make, named to say which of them the database fails. */
  datatype Call = InChatQuery | InsertMessage | UserExistsQuery(member: int) | PrivateChatQuery | CreateChat

  /**
   * What the handlers get from outside: the clock, the failing calls, and the
   * answers of IsUserExisting (the set of existing users) and
   * IsPrivateChatExisting, two queries whose code is not part of this model.
   */
  datatype Env = Env(now: int, failing: set<Call>, users: set<int>, privateChatExists: bool)

  /**
   * The event handleMessage broadcasts for `frame` from `userId`, given the
   * chats and the next message serial before the call; None when it
   * broadcasts nothing.
   */
  function MessageOutcome(userId: int, frame: Frame, env: Env, chats: map<int, ChatRow>, nextId: int): Option<OutgoingBase> {
    match DecodeNewMessage(frame)
    case None => None
    case Some(m) =>
      if m.content != "" && InChatQuery !in env.failing && InsertMessage !in env.failing && m.chatId in chats
      then Some(OutgoingBase(m.typ, NewMessageDataValue(NewMessageData(m.content, m.chatId, userId, env.now, nextId)),
                             "chatID", [m.chatId]))
      else None
  }

  /**
   * handleMessage. The membership check only fails when its query fails (a
   * non-member passes). The event's sender is the connection's user, its
   * id the stored row's, its time the one stored, its audience the chat.
   */
  method HandleMessage(userId: int, frame: Frame, chats: ChatTables, env: Env) returns (event: Option<OutgoingBase>)
    requires chats.Valid()
    modifies chats
    ensures chats.Valid()
    ensures chats.chats == old(chats.chats) && chats.chatUsers == old(chats.chatUsers) && chats.nextChatId == old(chats.nextChatId)
    ensures event.None? ==> chats.messages == old(chats.messages)
    ensures event == MessageOutcome(userId, frame, env, old(chats.chats), old(chats.nextMessageId))
    ensures match DecodeNewMessage(frame)
      case None => event.None? && unchanged(chats)
      case Some(m) =>
        && (m.content == "" ==> event.None? && unchanged(chats))
        && (event.Some? <==> && m.content != "" && InChatQuery !in env.failing && InsertMessage !in env.failing
                             && m.chatId in old(chats.chats))
        && (event.Some? ==>
              var id := old(chats.nextMessageId);
              && chats.messages == old(chats.messages) + [MessageRow(id, m.chatId, userId, m.content, env.now)]
              && event.value.typ == m.typ
              && event.value.verifyType == "chatID" && event.value.verifyIds == [m.chatId]
              && event.value.data == NewMessageDataValue(NewMessageData(m.content, m.chatId, userId, env.now, id)))
  {
    var decoded := DecodeNewMessage(frame);
    if decoded.None? { return None; }
    var message := decoded.value;
    if message.content == "" { return None; }
    var failed := chats.IsUserInChat(userId, message.chatId, InChatQuery !in env.failing);
    if failed { return None; }
    var now := env.now;
    var messageId := chats.NewMessage(message.chatId, userId, message.content, now, InsertMessage !in env.failing);
    if messageId == -1 { return None; }
    var data := NewMessageData(message.content, message.chatId, userId, now, messageId);
    event := Some(OutgoingBase(message.typ, NewMessageDataValue(data), "chatID", [message.chatId]));
  }

  /** The members-existence loop of handleNewChat: every listed member exists and was checked without error. */
  method MembersExist(members: seq<int>, env: Env) returns (valid: bool)
    ensures valid <==> forall m :: m in members ==> m in env.users && UserExistsQuery(m) !in env.failing
  {
    valid := true;
    for i := 0 to |members|
      invariant valid <==> forall j :: 0 <= j < i ==> members[j] in env.users && UserExistsQuery(members[j]) !in env.failing
    {
      var member := members[i];
      var err := UserExistsQuery(member) in env.failing;
      // a failed query leaves `exists` at its zero value
      var present := !err && member in env.users;
      if err { valid := false; }
      if !present { valid := false; }
    }
    if !valid {
      var j :| 0 <= j < |members| && !(members[j] in env.users && UserExistsQuery(members[j]) !in env.failing);
      var m := members[j];
      assert m in members && !(m in env.users && UserExistsQuery(m) !in env.failing);
    } else {
      forall m | m in members
        ensures m in env.users && UserExistsQuery(m) !in env.failing
      {
        var j :| 0 <= j < |members| && members[j] == m;
      }
    }
  }

  /** handleNewChat's guards before the chat is created. */
  predicate NewChatAllowed(c: NewChat, env: Env) {
    && (forall m :: m in c.members ==> m in env.users && UserExistsQuery(m) !in env.failing)
    && |c.members| != 2
    && (|c.members| == 1 ==> PrivateChatQuery !in env.failing && env.privateChatExists)
  }

  /**
   * The event handleNewChat broadcasts for `frame` from `userId`, given the
   * next chat serial before the call; None when it broadcasts nothing.
   */
  function NewChatOutcome(userId: int, frame: Frame, env: Env, nextId: int): Option<OutgoingBase> {
    match DecodeNewChat(frame)
    case None => None
    case Some(c) =>
      var withCreator := [userId] + c.members;
      if NewChatAllowed(c, env) && CreateChat !in env.failing && Distinct(withCreator)
      then Some(OutgoingBase(c.typ, NewChatDataValue(NewChatData(nextId, withCreator, c.chatName, env.now)),
                             "userID", withCreator))
      else None
  }

  /**
   * handleNewChat. Every member must exist; a list of exactly two is always
   * refused; a list of one passes only when a private chat with that member
   * already exists. The chat's members are the creator followed by the
   * listed ones, and the same list is the event's userID audience.
   */
  method HandleNewChat(userId: int, frame: Frame, chats: ChatTables, env: Env) returns (event: Option<OutgoingBase>)
    requires chats.Valid()
    modifies chats
    ensures chats.Valid()
    ensures chats.messages == old(chats.messages) && chats.nextMessageId == old(chats.nextMessageId)
    ensures event.None? ==> chats.chats == old(chats.chats) && chats.chatUsers == old(chats.chatUsers)
    ensures event == NewChatOutcome(userId, frame, env, old(chats.nextChatId))
    ensures match DecodeNewChat(frame)
      case None => event.None? && unchanged(chats)
      case Some(c) =>
        var withCreator := [userId] + c.members;
        && (!NewChatAllowed(c, env) ==> event.None? && unchanged(chats))
        && (event.Some? <==> NewChatAllowed(c, env) && CreateChat !in env.failing && Distinct(withCreator))
        && (event.Some? ==>
              var id := old(chats.nextChatId);
              && chats.chats == old(chats.chats)[id := ChatRow(|withCreator| > 2, StoredName(c.chatName))]
              && chats.chatUsers == old(chats.chatUsers) + MemberRows(id, withCreator)
              && event.value.typ == c.typ
              && event.value.verifyType == "userID" && event.value.verifyIds == withCreator
              && event.value.data == NewChatDataValue(NewChatData(id, withCreator, c.chatName, env.now)))
  {
    var decoded := DecodeNewChat(frame);
    if decoded.None? { return None; }
    var message := decoded.value;
    var areMembersValid := MembersExist(message.members, env);
    if !areMembersValid || |message.members| == 2 { return None; }
    if |message.members| == 1 {
      var failed := PrivateChatQuery in env.failing;
      var found := !failed && env.privateChatExists;
      if failed || !found { return None; }
    }
    var membersWithCreator := [userId] + message.members;
    var chatId := chats.InitNewChat(message.chatName, membersWithCreator, CreateChat !in env.failing);
    if chatId == -1 { return None; }
    var data := NewChatData(chatId, membersWithCreator, message.chatName, env.now);
    event := Some(OutgoingBase(message.typ, NewChatDataValue(data), "userID", membersWithCreator));
  }
}
